=== FILE: README.md ===
# Task manager core, modelled in Dafny

The repository holds two versions of one small task-collection state machine.

- **The web version** (`src/components/TaskManager.tsx`) keeps:
  - a list of active tasks, re-sorted by priority on every add and undo;
  - a list of completed tasks;
  - a list of deleted tasks, for undo;
  - an id counter.

  A form (`src/components/TaskForm.tsx`) decides whether a draft reaches `addTask`. A derived view filters the active list by a search term and a category, and sorts it by priority, deadline or name.
- **The console version** (`cpp-source/src/TaskManager.cpp`) keeps:
  - a doubly linked list ordered by priority;
  - a redo stack and a done stack of (name, priority) entries;
  - a creation queue;
  - a code counter.

The model works in these modules:

- **Shared modules.**
  - `Wrappers` holds `Option`.
  - `Seqs` holds a generic `Filter` and subsequences.
  - `Ids` holds distinct keys and key sets.
  - `Sorting` is a stable insertion sort over any total preorder. JavaScript's `Array.prototype.sort` is stable, and the C++ walk in `addTask` inserts before the first node of larger priority (on the ordered list, right after the last node of no larger priority), so both versions use the same `Insert`.
  - `Text` holds JavaScript's `trim`, ASCII lower-casing and substring search.
- **Web version.**
  - `WebStore` has the four handlers as pure transitions over an immutable `Store`.
  - `WebInvariant` has the id invariant every handler keeps, and the ordering facts.
  - `TaskView` covers `filteredTasks` and `sortedTasks`.
  - `TaskForm` covers `handleSubmit` and the form's initial state.
- **Console version.**
  - `ConsoleStore` has the C++ operations over a sequence abstraction of the list.
  - `ConsoleInvariant` has the console invariant and the `redo` behaviour.
  - `LinkedList` is an imperative model of the doubly linked list. The heap is a map from addresses to nodes, and a ghost address sequence is checked against every `prev`/`next` link. Its add, remove and search walks are shown to compute exactly the sequence model's results.
  - `LinkedConsole` puts the linked list together with the stacks, queue and counter. It proves that each console operation refines the `ConsoleStore` one.
- **Both versions.** `Versions` relates the two: adding a task to mirrored lists gives mirrored lists, and a console search hit is a web search hit.

Three facts about the code shape the model:

- **The active list is not always sorted.** The sample tasks loaded at start-up have priorities 1, 3, 2 (`src/components/TaskManager.tsx:47-74`). The list is guaranteed to be in priority order only from the first add or undo on. Before that, a delete or complete can leave it out of order: deleting task 1 leaves priorities 3, 2, while deleting task 3 leaves 1, 3, which is in order. `WebInvariant.SampleStoreNotSorted` and `WebInvariant.SampleDeleteOrder` show this.
- **Validation happens only in the form.** `addTask` accepts any draft. `handleSubmit` rejects an all-whitespace name or an empty deadline. Before it runs, the browser enforces the inputs' `required` attributes and the date's `min` of today (`src/components/TaskForm.tsx:61`, `:88-89`); those attribute checks are left out with the JSX. `TaskForm.Submit` models `handleSubmit` and the store together.
- **An absent id is ignored.** Delete and complete of an absent id do nothing and emit nothing.

## Model

| member | source | states |
|---|---|---|
| WebStore.SortByPriority | src/components/TaskManager.tsx:85 | the result is a stable sort by ascending priority: a permutation, sorted, with equal-priority tasks in their prior order |
| WebStore.AddTask | src/components/TaskManager.tsx:77-91 | the new task gets id = counter and is not completed; the counter goes up by exactly 1; completed and deleted are unchanged; active becomes a stable priority sort of the old list plus the new task |
| WebStore.FindById | src/components/TaskManager.tsx:94 | finds nothing exactly when no active task has the id; otherwise returns the first task carrying it |
| WebStore.WithoutId | src/components/TaskManager.tsx:96 | keeps exactly the tasks whose id differs, each as many times as before and in their original order |
| WebStore.DeleteTask | src/components/TaskManager.tsx:93-100 | an absent id changes nothing; a present id removes the tasks carrying it from active, keeping the others in order with their multiplicities, and puts the first one found, unchanged, at the front of deleted; completed and the counter are untouched |
| WebStore.CompleteTask | src/components/TaskManager.tsx:102-109 | an absent id changes nothing; a present id removes the tasks carrying it from active, keeping the others in order with their multiplicities, and puts a copy of the first one found, with only `completed` set to true, at the front of completed; deleted and the counter are untouched |
| WebStore.UndoDelete | src/components/TaskManager.tsx:111-121 | with nothing deleted, nothing changes; otherwise the head of deleted leaves it, and active becomes a stable priority sort of the old active plus that same record; the counter is untouched |
| WebStore.Apply | src/components/TaskManager.tsx:77-121 | only `addTask` moves the id counter, and by exactly 1; delete, complete and undo leave it alone |
| WebStore.Run | src/components/TaskManager.tsx:77-121 | the id counter never goes down over any sequence of handler calls |
| WebInvariant.StartStatesValid | src/components/TaskManager.tsx:41-74 | both the empty start state (counter 1) and the sample state (ids 1..3, counter 4) satisfy the id invariant |
| WebInvariant.SampleStoreNotSorted | src/components/TaskManager.tsx:47-74 | the sample active list is not in priority order |
| WebInvariant.SampleDeleteOrder | src/components/TaskManager.tsx:47-100 | before any add or undo, a delete alone decides whether active is ordered: deleting task 1 from the sample leaves it out of priority order, deleting task 3 leaves it in order |
| WebInvariant.ValidIdsUniqueAcrossStore | src/components/TaskManager.tsx:24-41 | under the invariant, ids are pairwise distinct across active, completed and deleted together, and all below the counter |
| WebInvariant.AddKeepsValid | src/components/TaskManager.tsx:77-87 | the id handed out is used nowhere in the store, and `addTask` keeps the invariant |
| WebInvariant.DeleteKeepsValid | src/components/TaskManager.tsx:93-100 | `deleteTask` keeps the invariant |
| WebInvariant.CompleteKeepsValid | src/components/TaskManager.tsx:102-109 | `completeTask` keeps the invariant, including the completed flag of every completed task |
| WebInvariant.UndoKeepsValid | src/components/TaskManager.tsx:111-121 | `undoDelete` keeps the invariant: the restored id is not live elsewhere |
| WebInvariant.ApplyKeepsValid | src/components/TaskManager.tsx:77-121 | every handler keeps the invariant |
| WebInvariant.RunKeepsValid | src/components/TaskManager.tsx:77-121 | every sequence of handler calls keeps the invariant (by induction on the sequence) |
| WebInvariant.ReachableStoresValid | src/components/TaskManager.tsx:45-121 | every state reachable from the sample state satisfies the invariant |
| WebInvariant.DeleteKeepsSorted | src/components/TaskManager.tsx:96 | removing a task keeps a priority-ordered active list ordered |
| WebInvariant.CompleteKeepsSorted | src/components/TaskManager.tsx:105 | completing a task keeps a priority-ordered active list ordered |
| WebInvariant.AddPlacesAfterEqualPriority | src/components/TaskManager.tsx:85 | on a sorted list, the new task lands right after every task of no larger priority and before every task of larger priority |
| WebInvariant.DeleteThenUndo | src/components/TaskManager.tsx:93-121 | delete then undo restores the same record, so active holds the same tasks as before (as a multiset), in priority order, and deleted, completed and the counter are as before |
| TaskView.NameLeTotal | src/components/TaskManager.tsx:136-137 | the name order is total |
| TaskView.NameLeTransitive | src/components/TaskManager.tsx:136-137 | the name order is transitive |
| TaskView.OrderIsTotalPreorder | src/components/TaskManager.tsx:130-141 | each of the three comparators of `sortedTasks` is a total preorder |
| TaskView.FilteredTasks | src/components/TaskManager.tsx:123-128 | keeps a task exactly when the lower-cased term occurs in its lower-cased name or category, and the category filter is `all` or equal; keeps multiplicities and list order |
| TaskView.SortedTasks | src/components/TaskManager.tsx:130-141 | the result is a stable sort of its input under the selected key |
| TaskView.View | src/components/TaskManager.tsx:123-141 | the displayed list is a stable sort, under the selected key, of the matching active tasks in list order |
| TaskView.EmptySearchKeepsAll | src/components/TaskManager.tsx:123-128 | an empty term with category `all` shows the whole active list unchanged |
| TaskView.CategoryFilterIsExact | src/components/TaskManager.tsx:126 | with a category other than `all`, only tasks of exactly that category are shown |
| TaskView.PriorityViewOfSortedStore | src/components/TaskManager.tsx:130-133 | on a priority-sorted store, the priority view is the filtered list itself |
| TaskView.CompletedNotInView | src/components/TaskManager.tsx:102-128 | once completed, a task shows up in no view, and the completed record carries its id with the flag set |
| TaskForm.HandleSubmit | src/components/TaskForm.tsx:24-36 | rejects exactly when the name is all whitespace or the deadline is empty; on acceptance the name is the trimmed, non-empty input with no surrounding whitespace, and priority, category and parsed deadline are forwarded |
| TaskForm.Submit | src/components/TaskForm.tsx:24-36 | a rejected form leaves the store unchanged; an accepted one makes active a stable priority sort of the old active list plus the trimmed task with the next id, moves the counter by 1, and leaves completed and deleted alone |
| TaskForm.SubmitKeepsValid | src/components/TaskForm.tsx:24-36 | submitting any form keeps the id invariant |
| TaskForm.InitialFormRejected | src/components/TaskForm.tsx:17-28 | the form as first shown is rejected |
| TaskForm.DefaultCategoryNotOffered | src/components/TaskForm.tsx:19-21 | accepting a form whose only edits are a name and a date submits priority 1 and a category that is not among the offered categories |
| TaskForm.IntendedDefaultCategoryOffered | src/components/TaskForm.tsx:19-21 | with the first offered category as default, an accepted form submits an offered category and priority 1 |
| Text.Trim | src/components/TaskForm.tsx:26 | the result is the input with its leading and trailing whitespace cut off: it is empty exactly when the input is all whitespace, and otherwise it starts and ends with non-whitespace |
| Text.TrimIdempotent | src/components/TaskForm.tsx:31 | trimming twice is trimming once |
| Text.Lower | src/components/TaskManager.tsx:124-125 | lower-cases each character in place and keeps the length |
| Text.LowerIdempotent | src/components/TaskManager.tsx:124-125 | lower-casing twice is lower-casing once, and leaves no upper-case ASCII letter |
| Text.Includes | cpp-source/src/TaskManager.cpp:203-204 | true exactly when the second string occurs at some position of the first |
| Text.LowerKeepsIncludes | src/components/TaskManager.tsx:124-125 | a substring stays a substring after both are lower-cased |
| Text.IncludesEmpty | src/components/TaskManager.tsx:124-125 | the empty term occurs in every string |
| Sorting.Sort | src/components/TaskManager.tsx:85 | insertion sort yields a stable sort: a permutation, ordered, with tied elements in input order |
| Sorting.InsertionPoint | cpp-source/src/TaskManager.cpp:64-67 | the stopping index of the walk: every element before it is not above the new one, and the element at it, if any, is above it |
| Sorting.InsertAt | cpp-source/src/TaskManager.cpp:64-83 | inserting places the element right after the longest prefix of elements not above it |
| Sorting.InsertPermutes | cpp-source/src/TaskManager.cpp:58-83 | inserting adds exactly that one element |
| Sorting.InsertSorted | cpp-source/src/TaskManager.cpp:61-83 | inserting into an ordered list keeps it ordered |
| Sorting.InsertStable | src/components/TaskManager.tsx:85 | inserting into a stable sort of `s` gives a stable sort of `s` plus the element at its end |
| Sorting.SortSortedIsIdentity | src/components/TaskManager.tsx:115 | sorting an ordered list changes nothing |
| Sorting.AppendThenSort | src/components/TaskManager.tsx:85 | appending then sorting an ordered list is one insertion at the insertion point |
| ConsoleStore.CreateList | cpp-source/src/TaskManager.cpp:37-42 | an empty console: no tasks, both stacks and the queue empty, and the next code is 1 |
| ConsoleStore.CreateElement | cpp-source/src/TaskManager.cpp:44-56 | the new task carries the given fields and the current counter as its code, and the counter after the post-increment is one more |
| ConsoleStore.AddTask | cpp-source/src/TaskManager.cpp:44-96 | the new task gets code = counter and goes before the first task of larger priority (on the ordered list, right after the last task of no larger priority); the counter goes up by 1; the code joins the rear of the queue; both stacks are unchanged |
| ConsoleStore.IndexOfCode | cpp-source/src/TaskManager.cpp:99-101 | finds nothing exactly when no task has the code; otherwise finds the first task carrying it |
| ConsoleStore.DeleteTask | cpp-source/src/TaskManager.cpp:98-121 | an absent code changes nothing; a present code removes exactly that task, keeps the rest in order, and pushes its name and priority on the redo stack; done, queue and counter are untouched |
| ConsoleStore.FinishTask | cpp-source/src/TaskManager.cpp:135-158 | like delete, but the entry goes onto the done stack and the redo stack is untouched |
| ConsoleStore.Redo | cpp-source/src/TaskManager.cpp:123-133 | an empty redo stack changes nothing; otherwise the top is popped and a task with its name and priority, the next code, date 1/1/2025 and category "General" is placed where `addTask` places it, before the first task of larger priority; the code joins the queue and the counter moves by 1 |
| ConsoleStore.SearchTask | cpp-source/src/TaskManager.cpp:202-213 | keeps, in list order and with their multiplicities, exactly the tasks whose name or category contains the keyword, case-sensitively |
| ConsoleStore.Session | cpp-source/src/TaskManager.cpp:46 | the code counter never goes down over any sequence of commands |
| ConsoleInvariant.CreateListValid | cpp-source/src/TaskManager.cpp:37-42 | the empty console (counter 1, empty queue and stacks) satisfies the invariant |
| ConsoleInvariant.AddKeepsCValid | cpp-source/src/TaskManager.cpp:44-96 | the code handed out is carried by no live task and by no queued entry, and `addTask` keeps the invariant |
| ConsoleInvariant.InsertNewCode | cpp-source/src/TaskManager.cpp:61-83 | inserting a task whose code is above all live codes keeps codes distinct and bounded and the list priority-ordered |
| ConsoleInvariant.RemoveFirstIsFilter | cpp-source/src/TaskManager.cpp:98-121 | with distinct codes, unlinking the first node with the code removes every task with that code |
| ConsoleInvariant.UnlinkKeepsCValid | cpp-source/src/TaskManager.cpp:108-112 | unlinking a live code keeps the invariant, and removes exactly that code and that one task |
| ConsoleInvariant.DeleteKeepsCValid | cpp-source/src/TaskManager.cpp:98-121 | `deleteTask` keeps the invariant, and the live codes lose exactly the given code |
| ConsoleInvariant.FinishKeepsCValid | cpp-source/src/TaskManager.cpp:135-158 | `finishTask` keeps the invariant, and the live codes lose exactly the given code |
| ConsoleInvariant.RedoKeepsCValid | cpp-source/src/TaskManager.cpp:123-133 | `redo` keeps the invariant |
| ConsoleInvariant.StepKeepsCValid | cpp-source/src/TaskManager.cpp:58-158 | every console operation keeps the invariant |
| ConsoleInvariant.SessionKeepsCValid | cpp-source/src/TaskManager.cpp:58-158 | every sequence of console operations keeps the invariant (by induction on the sequence) |
| ConsoleInvariant.ReachableConsolesValid | cpp-source/src/TaskManager.cpp:37-158 | every console reachable from `createList` satisfies the invariant, so its list is priority-ordered |
| ConsoleInvariant.AddIsStableSort | cpp-source/src/TaskManager.cpp:61-83 | on an ordered list, the console insertion equals a stable sort of the list with the new task appended, which is what the web `addTask` computes |
| ConsoleInvariant.RedoDoesNotRestoreCode | cpp-source/src/TaskManager.cpp:98-133 | delete then redo brings the task back with a fresh code, date 1/1/2025 and category "General": the old code stays gone, the list has its old length, the redo stack is as before, and the counter went up by 1 |
| ConsoleInvariant.LiveCodesQueued | cpp-source/src/TaskManager.cpp:85-93 | every live code is in the creation queue |
| ConsoleInvariant.EmptyKeywordFindsAll | cpp-source/src/TaskManager.cpp:202-204 | an empty keyword finds every task |
| LinkedList.EmptyShape | cpp-source/src/TaskManager.cpp:38 | a null head and tail form a well-linked empty list |
| LinkedList.FindSlot | cpp-source/src/TaskManager.cpp:64-67 | the walk stops at the insertion point of the sequence model: the first node of larger priority, or null |
| LinkedList.LinkedAdd | cpp-source/src/TaskManager.cpp:61-83 | the four link updates keep a well-linked list whose tasks are the sequence model's insertion, using one new address; nodes off the list are unchanged |
| LinkedList.EmptySplice | cpp-source/src/TaskManager.cpp:61-62 | the first node of an empty list is linked in at position 0 |
| LinkedList.TailSplice | cpp-source/src/TaskManager.cpp:69-72 | linking after the tail links the new node in at the end |
| LinkedList.HeadSplice | cpp-source/src/TaskManager.cpp:73-76 | linking before the head links the new node in at position 0 |
| LinkedList.BeforeSplice | cpp-source/src/TaskManager.cpp:77-81 | linking before an inner node links the new node in just in front of it |
| LinkedList.SpliceContents | cpp-source/src/TaskManager.cpp:61-83 | a node linked in at position k keeps the list well linked and puts its task at position k |
| LinkedList.SpliceIsInsert | cpp-source/src/TaskManager.cpp:61-83 | linked in at the walk's stop, the new node gives the sequence model's insertion |
| LinkedList.FindCode | cpp-source/src/TaskManager.cpp:99-101 | the search walk reaches the end exactly when no node has the code; otherwise it stops at the first node carrying it |
| LinkedList.UnlinkShape | cpp-source/src/TaskManager.cpp:108-112 | unlinking a node keeps a well-linked list over the other nodes and frees only its address |
| LinkedList.UnlinkContents | cpp-source/src/TaskManager.cpp:108-112 | unlinking the k-th node removes exactly the k-th task |
| LinkedList.LinkedRemove | cpp-source/src/TaskManager.cpp:98-121 | an absent code leaves the heap as it was; a present one removes exactly the first task with it, returns that task and frees its address; nodes off the list are unchanged |
| LinkedList.LinkedSearch | cpp-source/src/TaskManager.cpp:202-213 | the walk collects exactly the sequence model's search result |
| LinkedConsole.CreateList | cpp-source/src/TaskManager.cpp:37-42 | the imperative empty console is the sequence model's `createList` |
| LinkedConsole.AddTask | cpp-source/src/TaskManager.cpp:58-96 | the imperative `addTask` refines the sequence model's one |
| LinkedConsole.DeleteTask | cpp-source/src/TaskManager.cpp:98-121 | the imperative `deleteTask` refines the sequence model's one and allocates nothing |
| LinkedConsole.FinishTask | cpp-source/src/TaskManager.cpp:135-158 | the imperative `finishTask` refines the sequence model's one and allocates nothing |
| LinkedConsole.Redo | cpp-source/src/TaskManager.cpp:123-133 | the imperative `redo` refines the sequence model's one |
| LinkedConsole.SearchTask | cpp-source/src/TaskManager.cpp:191-213 | the imperative search returns exactly the sequence model's matches |
| Versions.MirrorKeepsSorted | cpp-source/src/TaskManager.cpp:61-83 | a priority-ordered console list mirrors to a priority-ordered web list |
| Versions.InsertCommutes | src/components/TaskManager.tsx:85 | inserting then mirroring is mirroring then inserting |
| Versions.AddAgrees | src/components/TaskManager.tsx:77-87 | on mirrored sorted lists with equal counters, the web and console `addTask` give mirrored lists |
| Versions.SearchAgrees | src/components/TaskManager.tsx:124-125 | a console keyword hit is also a web search hit for the same term |

## Left out

- Rendering is left out: all JSX, `getPriorityColor`, `formatDate`, the toast notifications and the completed-tasks component. They only present data.
- The browser's own form validation is left out: the `required` attributes on the name and date inputs and the date's `min` of today (`src/components/TaskForm.tsx:61`, `:88-89`). The `min` bound reads the wall clock, and both checks run in the page before `handleSubmit`. The model accepts any draft `handleSubmit` accepts, including a past deadline.
- `isOverdue` and `isToday` in the task list are left out, because they read the wall clock.
- Date parsing is left out. `new Date(deadline)` in the form becomes a parameter `parseDate` from strings to integer timestamps. The sample deadlines are their UTC millisecond timestamps, and the console's day/month/year becomes a timestamp through a `stamp` parameter in `Versions`.
- Locale behaviour is simplified:
  - `localeCompare` is modelled as lexicographic code-point order (`TaskView.NameLe`), not locale collation.
  - `toLowerCase` is modelled on ASCII letters only (`Text.Lower`).
- The `default: return 0` branch of `sortedTasks` is left out. It is unreachable, because the sort selector has only three values.
- React's state batching and closures are left out. Each handler is one atomic state transition.
- The console's input and output are left out: the menu, `run`, `showTasks`, `showDoneTasks`, the printing in `searchTask`, and all messages. The C++ `searchTask` is modelled as returning the tasks it would print.
- Memory management is left out: the destructor and every `delete`. In the imperative model, freeing a node removes its address from the heap. The new address comes in as a parameter `cell`, which must be unused.
- The creation queue is modelled as the sequence of codes it records. The pointers it keeps to freed nodes are not modelled.
- `sortTasksByPriority` and `sortTasksByDate` are declared in the header but never defined, so they are not modelled.
- `ConsoleStore.AddTask`: does not model the overflow of the C++ `int` code counter after 2^31 - 1 tasks. Codes are unbounded integers.
- `WebStore.AddTask`: does not model the precision loss of the JavaScript number counter past 2^53, where `prev + 1` no longer changes it and ids would repeat. Ids are unbounded integers.
- Strings are modelled as sequences of Unicode scalar values, not as JavaScript's UTF-16 code units or the C++ `std::string` bytes. `trim`, `includes`, `toLowerCase`, `localeCompare` and `std::string::find` agree with the model only on well-formed text.
- `Text.Lower`: lower-cases only ASCII letters, whereas JavaScript's `toLowerCase` also maps other Unicode letters. `Versions.SearchAgrees` depends on this.
- `Versions.SearchAgrees`: states only one direction. A case-insensitive web match need not be a case-sensitive console match.
- `WebStore.Run`: its own contract states only the counter's monotonicity. The invariant it keeps is stated by `WebInvariant.RunKeepsValid`.
- `ConsoleStore.Session`: its own contract states only the counter's monotonicity. The invariant it keeps is stated by `ConsoleInvariant.SessionKeepsCValid`.

## Findings

| source | as written | input that shows it | evidently intended | confidence | as-written member | corrected member |
|---|---|---|---|---|---|---|
| src/components/TaskForm.tsx:21 | the form's initial category is `'Pekerjaan'`, which is not one of the categories the manager offers (`src/components/TaskManager.tsx:43`), the same list the category filter shows (`src/components/TaskManager.tsx:201`) | open the form, type a name and a deadline, submit without touching the category: the task is filed under `Pekerjaan`, which no category filter except `all` shows | the default is one of the offered categories, e.g. the first, `Work` | not executed | TaskForm.DefaultCategoryNotOffered | TaskForm.IntendedDefaultCategoryOffered |

=== FILE: ConsoleInvariant.dfy ===
/** What every console state reachable from `createList` satisfies, and how the
    console operations relate to each other and to the sorting model. */
module ConsoleInvariant {
  import opened Seqs
  import opened Sorting
  import opened Ids
  import opened Text
  import opened ConsoleStore

  ghost predicate CodesBelow(s: seq<CTask>, counter: int) {
    forall i :: 0 <= i < |s| ==> 1 <= s[i].code < counter
  }

  /** The queue holds every code handed out so far, oldest at the front. */
  ghost predicate QueueIsHistory(q: seq<int>, counter: int) {
    |q| == counter - 1 && forall i :: 0 <= i < |q| ==> q[i] == i + 1
  }

  /** The console invariant: live codes are distinct and already handed out,
      the list runs in non-decreasing priority, and the queue records every
      code in creation order. */
  ghost predicate CValid(c: Console) {
    && c.counter >= 1
    && DistinctKeys(c.list, Code)
    && CodesBelow(c.list, c.counter)
    && Sorted(c.list, PriorityAtMost)
    && QueueIsHistory(c.queue, c.counter)
  }

  lemma CreateListValid()
    ensures CValid(CreateList())
  {
  }

  lemma BelowNotLive(s: seq<CTask>, counter: int)
    requires CodesBelow(s, counter)
    ensures counter !in KeySet(s, Code)
  {
  }

  /** `addTask` keeps the invariant, and the code it hands out was never
      handed out before: no live task and no queued code carries it. */
  lemma AddKeepsCValid(c: Console, name: string, priority: int, day: int, month: int, year: int, category: string)
    requires CValid(c)
    ensures c.counter !in KeySet(c.list, Code)
    ensures c.counter !in c.queue
    ensures CValid(AddTask(c, name, priority, day, month, year, category))
  {
    var t := CTask(c.counter, name, priority, day, month, year, category);
    assert AddTask(c, name, priority, day, month, year, category).list == Insert(c.list, t, PriorityAtMost);
    BelowNotLive(c.list, c.counter);
    InsertNewCode(c.list, t);
  }

  /** Inserting a task whose code is above every live code keeps the codes
      distinct and bounded and the list in priority order. */
  lemma InsertNewCode(s: seq<CTask>, t: CTask)
    requires t.code >= 1
    requires DistinctKeys(s, Code) && CodesBelow(s, t.code) && Sorted(s, PriorityAtMost)
    ensures var r := Insert(s, t, PriorityAtMost);
      DistinctKeys(r, Code) && CodesBelow(r, t.code + 1) && Sorted(r, PriorityAtMost)
  {
    var r := Insert(s, t, PriorityAtMost);
    BelowNotLive(s, t.code);
    PriorityAtMostIsTotalPreorder();
    InsertSorted(s, t, PriorityAtMost);
    InsertPermutes(s, t, PriorityAtMost);
    DistinctConcat(s, [t], Code);
    KeySetSingleton(t, Code);
    PermutationKeepsDistinct(r, s + [t], Code);
    forall i | 0 <= i < |r|
      ensures 1 <= r[i].code < t.code + 1
    {
      assert r[i] in multiset(s) + multiset{t};
    }
  }

  /** With distinct codes, only the node found by the walk carries `code`. */
  lemma OnlyFoundNodeCarriesCode(s: seq<CTask>, code: int)
    requires DistinctKeys(s, Code)
    requires code in KeySet(s, Code)
    ensures var i := IndexOfCode(s, code).value;
      forall j :: 0 <= j < |s| && j != i ==> KeyIsNot(Code, code)(s[j])
  {
  }

  /** With distinct codes, unlinking the first node carrying `code` is the same
      as keeping every node whose code differs. */
  lemma RemoveFirstIsFilter(s: seq<CTask>, code: int)
    requires DistinctKeys(s, Code)
    requires code in KeySet(s, Code)
    ensures var i := IndexOfCode(s, code).value;
      s[..i] + s[i + 1..] == Filter(s, KeyIsNot(Code, code))
  {
    var i := IndexOfCode(s, code).value;
    OnlyFoundNodeCarriesCode(s, code);
    FilterDropOne(s, i, KeyIsNot(Code, code));
  }

  /** Unlinking the node carrying a live code keeps the invariant, and takes
      away exactly that code and that task. */
  lemma UnlinkKeepsCValid(c: Console, code: int)
    requires CValid(c)
    requires code in KeySet(c.list, Code)
    ensures var i := IndexOfCode(c.list, code).value;
      var rest := c.list[..i] + c.list[i + 1..];
      && CValid(c.(list := rest))
      && KeySet(rest, Code) == KeySet(c.list, Code) - {code}
      && multiset(rest) + multiset{c.list[i]} == multiset(c.list)
  {
    var i := IndexOfCode(c.list, code).value;
    RemoveFirstIsFilter(c.list, code);
    FilterKeepsCValid(c, KeyIsNot(Code, code));
    RemoveKeyRemovesOne(c.list, Code, c.list[i]);
  }

  /** Dropping any tasks from the list keeps the invariant. */
  lemma FilterKeepsCValid(c: Console, p: CTask -> bool)
    requires CValid(c)
    ensures CValid(c.(list := Filter(c.list, p)))
  {
    var rest := Filter(c.list, p);
    FilterKeepsDistinct(c.list, p, Code);
    FilterKeepsSorted(c.list, p, PriorityAtMost);
    FilterMembership(c.list, p);
    forall j | 0 <= j < |rest|
      ensures 1 <= rest[j].code < c.counter
    {
      assert rest[j] in c.list;
    }
  }

  lemma DeleteKeepsCValid(c: Console, code: int)
    requires CValid(c)
    ensures CValid(DeleteTask(c, code))
    ensures KeySet(DeleteTask(c, code).list, Code) == KeySet(c.list, Code) - {code}
  {
    if code in KeySet(c.list, Code) {
      UnlinkKeepsCValid(c, code);
    }
  }

  lemma FinishKeepsCValid(c: Console, code: int)
    requires CValid(c)
    ensures CValid(FinishTask(c, code))
    ensures KeySet(FinishTask(c, code).list, Code) == KeySet(c.list, Code) - {code}
  {
    if code in KeySet(c.list, Code) {
      UnlinkKeepsCValid(c, code);
    }
  }

  lemma RedoKeepsCValid(c: Console)
    requires CValid(c)
    ensures CValid(Redo(c))
  {
    if c.redo != [] {
      var e := c.redo[0];
      AddKeepsCValid(c.(redo := c.redo[1..]), e.name, e.priority, 1, 1, 2025, "General");
    }
  }

  lemma StepKeepsCValid(c: Console, cmd: Command)
    requires CValid(c)
    ensures CValid(Step(c, cmd))
  {
    match cmd
    case AddCommand(n, p, d, m, y, cat) => AddKeepsCValid(c, n, p, d, m, y, cat);
    case DeleteCommand(code) => DeleteKeepsCValid(c, code);
    case FinishCommand(code) => FinishKeepsCValid(c, code);
    case RedoCommand => RedoKeepsCValid(c);
  }

  lemma {:induction false} SessionKeepsCValid(c: Console, cmds: seq<Command>)
    requires CValid(c)
    ensures CValid(Session(c, cmds))
    decreases |cmds|
  {
    if cmds != [] {
      StepKeepsCValid(c, cmds[0]);
      SessionKeepsCValid(Step(c, cmds[0]), cmds[1..]);
    }
  }

  /** Every console reachable from `createList` satisfies the invariant; in
      particular its list is always ordered by priority. */
  lemma ReachableConsolesValid(cmds: seq<Command>)
    ensures CValid(Session(CreateList(), cmds))
    ensures Sorted(Session(CreateList(), cmds).list, PriorityAtMost)
  {
    CreateListValid();
    SessionKeepsCValid(CreateList(), cmds);
  }

  /** On an ordered list, `addTask` places the new task exactly where a stable
      sort of the list with the task appended would put it. */
  lemma AddIsStableSort(c: Console, name: string, priority: int, day: int, month: int, year: int, category: string)
    requires Sorted(c.list, PriorityAtMost)
    ensures AddTask(c, name, priority, day, month, year, category).list
         == Sort(c.list + [CTask(c.counter, name, priority, day, month, year, category)], PriorityAtMost)
  {
    var t := CTask(c.counter, name, priority, day, month, year, category);
    PriorityAtMostIsTotalPreorder();
    AppendThenSort(c.list, t, PriorityAtMost);
    InsertAt(c.list, t, PriorityAtMost);
  }

  /** `deleteTask` then `redo` does not give the task back: the old code stays
      gone, and the list instead holds a task with a fresh code, the same name
      and priority, the date 1/1/2025 and the category `General`. */
  lemma RedoDoesNotRestoreCode(c: Console, code: int)
    requires CValid(c)
    requires code in KeySet(c.list, Code)
    ensures var i := IndexOfCode(c.list, code).value;
      var r := Redo(DeleteTask(c, code));
      var t := CTask(c.counter, c.list[i].name, c.list[i].priority, 1, 1, 2025, "General");
      && code !in KeySet(r.list, Code)
      && t in r.list && t.code != code
      && |r.list| == |c.list|
      && r.redo == c.redo && r.counter == c.counter + 1
  {
    var i := IndexOfCode(c.list, code).value;
    var m := DeleteTask(c, code);
    UnlinkKeepsCValid(c, code);
    var r := Redo(m);
    var t := CTask(c.counter, c.list[i].name, c.list[i].priority, 1, 1, 2025, "General");
    AddKeepsCValid(m.(redo := m.redo[1..]), t.name, t.priority, 1, 1, 2025, "General");
    assert multiset(r.list) == multiset(m.list) + multiset{t};
    assert |r.list| == |multiset(r.list)|;
    SamePermutationKeySet(r.list, m.list + [t], Code);
    DistinctConcat(m.list, [t], Code);
    KeySetSingleton(t, Code);
    assert code < c.counter;
  }

  /** Every live task's code is in the creation queue. */
  lemma LiveCodesQueued(c: Console)
    requires CValid(c)
    ensures forall t :: t in c.list ==> t.code in c.queue
  {
    forall t | t in c.list
      ensures t.code in c.queue
    {
      var i :| 0 <= i < |c.list| && c.list[i] == t;
      assert c.queue[t.code - 1] == t.code;
    }
  }

  /** The empty keyword matches every task: `searchTask("")` lists the whole list. */
  lemma EmptyKeywordFindsAll(s: seq<CTask>)
    ensures SearchTask(s, "") == s
  {
    forall t | t in s
      ensures MatchesKeyword("")(t)
    {
      IncludesEmpty(t.name);
    }
    FilterAll(s, MatchesKeyword(""));
  }
}

=== FILE: ConsoleStore.dfy ===
/** The console version (cpp-source/src/TaskManager.cpp), with its doubly
    linked list abstracted to the sequence of tasks from `head` to `tail`.
    The redo and done stacks are sequences with the top first, the creation
    queue is the sequence of codes from front to rear, and the code counter
    is an unbounded integer. */
module ConsoleStore {
  import opened Wrappers
  import opened Seqs
  import opened Sorting
  import opened Text
  import opened Ids

  /** A list node's payload: code, name, priority, deadline date, category. */
  datatype CTask = CTask(code: int, name: string, priority: int, day: int, month: int, year: int, category: string)

  /** A stack node keeps only the name and the priority of the task it records. */
  datatype Entry = Entry(name: string, priority: int)

  datatype Console = Console(list: seq<CTask>, redo: seq<Entry>, done: seq<Entry>, queue: seq<int>, counter: int)

  function Code(t: CTask): int { t.code }

  function PriorityAtMost(a: CTask, b: CTask): bool { a.priority <= b.priority }

  lemma PriorityAtMostIsTotalPreorder()
    ensures TotalPreorder(PriorityAtMost)
  {
  }

  /** `createList`: no tasks, both stacks and the queue empty, codes start at 1. */
  function CreateList(): (r: Console)
    ensures r.list == [] && r.redo == [] && r.done == [] && r.queue == []
    ensures r.counter == 1
  {
    Console([], [], [], [], 1)
  }

  /** `createElement`: a task with the current counter as its code, and the
      counter after the post-increment. */
  function CreateElement(counter: int, name: string, priority: int, day: int, month: int, year: int,
                         category: string): (r: (CTask, int))
    ensures r.0.code == counter && r.1 == counter + 1
    ensures r.0.name == name && r.0.priority == priority && r.0.category == category
    ensures r.0.day == day && r.0.month == month && r.0.year == year
  {
    (CTask(counter, name, priority, day, month, year, category), counter + 1)
  }

  /** `addTask`: the new task goes right after the leading run of tasks whose
      priority is at most its own (the walk from `head` stops at the first
      node of larger priority), its code joins the rear of the queue, and the
      counter moves on by one. The stacks are untouched. */
  function AddTask(c: Console, name: string, priority: int, day: int, month: int, year: int,
                   category: string): (r: Console)
    ensures var t := CTask(c.counter, name, priority, day, month, year, category);
      var k := InsertionPoint(c.list, t, PriorityAtMost);
      && r.list == c.list[..k] + [t] + c.list[k..]
      && r.queue == c.queue + [c.counter]
      && r.counter == c.counter + 1
      && r.redo == c.redo && r.done == c.done
  {
    var (t, next) := CreateElement(c.counter, name, priority, day, month, year, category);
    InsertAt(c.list, t, PriorityAtMost);
    Console(Insert(c.list, t, PriorityAtMost), c.redo, c.done, c.queue + [t.code], next)
  }

  /** Where the walk from `head` finds the first node carrying `code`. */
  function IndexOfCode(s: seq<CTask>, code: int): (r: Option<nat>)
    ensures r.None? <==> code !in KeySet(s, Code)
    ensures r.Some? ==> r.value < |s| && s[r.value].code == code
    ensures r.Some? ==> forall j :: 0 <= j < r.value ==> s[j].code != code
    decreases |s|
  {
    if s == [] then None
    else
      DistinctCons(s[0], s[1..], Code);
      assert s == [s[0]] + s[1..];
      if s[0].code == code then Some(0)
      else match IndexOfCode(s[1..], code)
        case None => None
        case Some(i) => Some(i + 1)
  }

  /** `deleteTask`: the first node carrying `code` is unlinked, the others keep
      their order, and its name and priority are pushed on the redo stack. An
      unknown code changes nothing. */
  function DeleteTask(c: Console, code: int): (r: Console)
    ensures code !in KeySet(c.list, Code) ==> r == c
    ensures code in KeySet(c.list, Code) ==> var i := IndexOfCode(c.list, code).value;
      && r.list == c.list[..i] + c.list[i + 1..]
      && r.redo == [Entry(c.list[i].name, c.list[i].priority)] + c.redo
      && r.done == c.done && r.queue == c.queue && r.counter == c.counter
  {
    match IndexOfCode(c.list, code)
    case None => c
    case Some(i) =>
      c.(list := c.list[..i] + c.list[i + 1..], redo := [Entry(c.list[i].name, c.list[i].priority)] + c.redo)
  }

  /** `finishTask`: like `deleteTask`, but the name and priority go on the done
      stack and the redo stack is untouched. An unknown code changes nothing. */
  function FinishTask(c: Console, code: int): (r: Console)
    ensures code !in KeySet(c.list, Code) ==> r == c
    ensures code in KeySet(c.list, Code) ==> var i := IndexOfCode(c.list, code).value;
      && r.list == c.list[..i] + c.list[i + 1..]
      && r.done == [Entry(c.list[i].name, c.list[i].priority)] + c.done
      && r.redo == c.redo && r.queue == c.queue && r.counter == c.counter
  {
    match IndexOfCode(c.list, code)
    case None => c
    case Some(i) =>
      c.(list := c.list[..i] + c.list[i + 1..], done := [Entry(c.list[i].name, c.list[i].priority)] + c.done)
  }

  /** `redo`: pops the top of the redo stack and adds a brand-new task with its
      name and priority, the next code, the date 1/1/2025 and the category
      `General`. The original code, date and category are not restored. An
      empty stack changes nothing. */
  function Redo(c: Console): (r: Console)
    ensures c.redo == [] ==> r == c
    ensures c.redo != [] ==>
      && r.redo == c.redo[1..] && r.done == c.done
      && r.counter == c.counter + 1 && r.queue == c.queue + [c.counter]
      && CTask(c.counter, c.redo[0].name, c.redo[0].priority, 1, 1, 2025, "General") in r.list
      && (var t := CTask(c.counter, c.redo[0].name, c.redo[0].priority, 1, 1, 2025, "General");
          var k := InsertionPoint(c.list, t, PriorityAtMost);
          r.list == c.list[..k] + [t] + c.list[k..])
      && multiset(r.list) == multiset(c.list) + multiset{CTask(c.counter, c.redo[0].name, c.redo[0].priority, 1, 1, 2025, "General")}
  {
    if c.redo == [] then c
    else
      var e := c.redo[0];
      var t := CTask(c.counter, e.name, e.priority, 1, 1, 2025, "General");
      InsertPermutes(c.list, t, PriorityAtMost);
      assert t in multiset(Insert(c.list, t, PriorityAtMost));
      AddTask(c.(redo := c.redo[1..]), e.name, e.priority, 1, 1, 2025, "General")
  }

  /** The test `searchTask` applies to each node: the keyword occurs, with case
      respected, in the name or in the category. */
  predicate Matches(t: CTask, keyword: string) {
    Includes(t.name, keyword) || Includes(t.category, keyword)
  }

  function MatchesKeyword(keyword: string): CTask -> bool {
    t => Matches(t, keyword)
  }

  /** The tasks `searchTask` prints, in list order: exactly the matching ones. */
  function SearchTask(s: seq<CTask>, keyword: string): (r: seq<CTask>)
    ensures forall x :: multiset(r)[x] == if Matches(x, keyword) then multiset(s)[x] else 0
    ensures IsSubsequence(r, s)
  {
    FilterMultiplicity(s, MatchesKeyword(keyword));
    FilterIsSubsequence(s, MatchesKeyword(keyword));
    Filter(s, MatchesKeyword(keyword))
  }

  /** One menu choice that changes state. */
  datatype Command =
    | AddCommand(name: string, priority: int, day: int, month: int, year: int, category: string)
    | DeleteCommand(code: int)
    | FinishCommand(code: int)
    | RedoCommand

  function Step(c: Console, cmd: Command): Console {
    match cmd
    case AddCommand(n, p, d, m, y, cat) => AddTask(c, n, p, d, m, y, cat)
    case DeleteCommand(code) => DeleteTask(c, code)
    case FinishCommand(code) => FinishTask(c, code)
    case RedoCommand => Redo(c)
  }

  /** Runs the commands in order. The counter never decreases along a run. */
  function Session(c: Console, cmds: seq<Command>): (r: Console)
    ensures r.counter >= c.counter
    decreases |cmds|
  {
    if cmds == [] then c else Session(Step(c, cmds[0]), cmds[1..])
  }
}

=== FILE: Ids.dfy ===
/** Facts about the identifiers carried by a sequence of records: the set of
    identifiers, and the property that no two positions share one. Shared by
    the web store (`id`) and the console store (`code`). */
module Ids {
  import opened Seqs

  ghost predicate DistinctKeys<T>(s: seq<T>, key: T -> int) {
    forall i, j :: 0 <= i < j < |s| ==> key(s[i]) != key(s[j])
  }

  ghost function KeySet<T>(s: seq<T>, key: T -> int): set<int> {
    set i | 0 <= i < |s| :: key(s[i])
  }

  lemma KeySetMember<T>(s: seq<T>, key: T -> int, x: T)
    requires x in s
    ensures key(x) in KeySet(s, key)
  {
    var i :| 0 <= i < |s| && s[i] == x;
  }

  lemma KeySetSingleton<T>(x: T, key: T -> int)
    ensures KeySet([x], key) == {key(x)}
    ensures DistinctKeys([x], key)
  {
    assert [x][0] == x;
  }

  /** Prepending keeps keys distinct exactly when the new key is unused. */
  lemma DistinctCons<T>(x: T, s: seq<T>, key: T -> int)
    ensures DistinctKeys([x] + s, key) <==> key(x) !in KeySet(s, key) && DistinctKeys(s, key)
    ensures KeySet([x] + s, key) == {key(x)} + KeySet(s, key)
  {
    DistinctConcat([x], s, key);
    assert KeySet([x], key) == {key(x)} by {
      assert [x][0] == x;
    }
  }

  /** Concatenation keeps keys distinct exactly when both halves do and share none. */
  lemma DistinctConcat<T>(a: seq<T>, b: seq<T>, key: T -> int)
    ensures DistinctKeys(a + b, key) <==>
      DistinctKeys(a, key) && DistinctKeys(b, key) && KeySet(a, key) !! KeySet(b, key)
    ensures KeySet(a + b, key) == KeySet(a, key) + KeySet(b, key)
  {
    var t := a + b;
    assert forall i :: 0 <= i < |a| ==> t[i] == a[i];
    assert forall i :: 0 <= i < |b| ==> t[|a| + i] == b[i];
    assert KeySet(t, key) == KeySet(a, key) + KeySet(b, key) by {
      forall k | k in KeySet(t, key)
        ensures k in KeySet(a, key) + KeySet(b, key)
      {
        var i :| 0 <= i < |t| && key(t[i]) == k;
        if i >= |a| {
          assert key(b[i - |a|]) == k;
        }
      }
    }
    if DistinctKeys(a, key) && DistinctKeys(b, key) && KeySet(a, key) !! KeySet(b, key) {
      forall i, j | 0 <= i < j < |t|
        ensures key(t[i]) != key(t[j])
      {
        if j < |a| {
        } else if i >= |a| {
          assert t[i] == b[i - |a|] && t[j] == b[j - |a|];
        } else {
          assert key(t[i]) in KeySet(a, key);
          assert t[j] == b[j - |a|];
          assert key(t[j]) in KeySet(b, key);
        }
      }
    }
    if DistinctKeys(t, key) {
      forall i, j | 0 <= i < j < |b|
        ensures key(b[i]) != key(b[j])
      {
        assert t[|a| + i] == b[i] && t[|a| + j] == b[j];
      }
      forall k | k in KeySet(a, key)
        ensures k !in KeySet(b, key)
      {
        var i :| 0 <= i < |a| && key(a[i]) == k;
        forall j | 0 <= j < |b|
          ensures key(b[j]) != k
        {
          assert t[|a| + j] == b[j];
        }
      }
    }
  }

  /** A sequence with distinct keys holds each element at most once. */
  lemma {:induction false} DistinctNoDuplicates<T>(s: seq<T>, key: T -> int)
    requires DistinctKeys(s, key)
    ensures forall x :: multiset(s)[x] <= 1
    decreases |s|
  {
    if s != [] {
      var rest := s[1..];
      assert s == [s[0]] + rest;
      DistinctCons(s[0], rest, key);
      DistinctNoDuplicates(rest, key);
      forall x | x in rest
        ensures x != s[0]
      {
        KeySetMember(rest, key, x);
      }
    }
  }

  /** Two equal elements at different positions count twice. */
  lemma RepeatCountsTwice<T>(r: seq<T>, i: int, j: int)
    requires 0 <= i < j < |r|
    ensures r[i] == r[j] ==> multiset(r)[r[i]] >= 2
  {
    assert r == r[..j] + r[j..];
    assert r[i] in r[..j];
    assert r[j] in r[j..];
  }

  /** Reordering keeps keys distinct. */
  lemma PermutationKeepsDistinct<T>(r: seq<T>, s: seq<T>, key: T -> int)
    requires multiset(r) == multiset(s)
    requires DistinctKeys(s, key)
    ensures DistinctKeys(r, key)
    ensures KeySet(r, key) == KeySet(s, key)
  {
    DistinctNoDuplicates(s, key);
    forall i, j | 0 <= i < j < |r|
      ensures key(r[i]) != key(r[j])
    {
      assert r[i] in multiset(s) && r[j] in multiset(s);
      var p :| 0 <= p < |s| && s[p] == r[i];
      var q :| 0 <= q < |s| && s[q] == r[j];
      RepeatCountsTwice(r, i, j);
      assert p != q ==> key(s[p]) != key(s[q]) || q < p;
      assert q < p ==> key(s[q]) != key(s[p]);
    }
    SamePermutationKeySet(r, s, key);
  }

  lemma SamePermutationKeySet<T>(r: seq<T>, s: seq<T>, key: T -> int)
    requires multiset(r) == multiset(s)
    ensures KeySet(r, key) == KeySet(s, key)
  {
    forall k | k in KeySet(r, key)
      ensures k in KeySet(s, key)
    {
      var i :| 0 <= i < |r| && key(r[i]) == k;
      assert r[i] in multiset(s);
      KeySetMember(s, key, r[i]);
    }
    forall k | k in KeySet(s, key)
      ensures k in KeySet(r, key)
    {
      var i :| 0 <= i < |s| && key(s[i]) == k;
      assert s[i] in multiset(r);
      KeySetMember(r, key, s[i]);
    }
  }

  /** Filtering keeps keys distinct and never introduces a key. */
  lemma {:induction false} FilterKeepsDistinct<T(!new)>(s: seq<T>, p: T -> bool, key: T -> int)
    requires DistinctKeys(s, key)
    ensures DistinctKeys(Filter(s, p), key)
    ensures KeySet(Filter(s, p), key) <= KeySet(s, key)
    decreases |s|
  {
    if s != [] {
      var rest := s[1..];
      assert s == [s[0]] + rest;
      DistinctCons(s[0], rest, key);
      FilterKeepsDistinct(rest, p, key);
      var f := Filter(rest, p);
      if p(s[0]) {
        assert Filter(s, p) == [s[0]] + f;
        DistinctCons(s[0], f, key);
      } else {
        assert Filter(s, p) == f;
      }
    }
  }

  /** Keeps the elements whose key differs from `k`. */
  function KeyIsNot<T>(key: T -> int, k: int): T -> bool {
    x => key(x) != k
  }

  /** In a sequence with distinct keys, an element is identified by its key. */
  lemma KeyIdentifies<T>(s: seq<T>, key: T -> int, t: T, x: T)
    requires DistinctKeys(s, key)
    requires t in s && x in s
    ensures key(x) == key(t) ==> x == t
  {
    var q :| 0 <= q < |s| && s[q] == t;
    var p :| 0 <= p < |s| && s[p] == x;
    assert key(x) == key(t) ==> p == q;
  }

  /** Removing every element keyed `k` from a sequence with distinct keys
      removes exactly the one element `t` that carries it. */
  lemma RemoveKeyRemovesOne<T(!new)>(s: seq<T>, key: T -> int, t: T)
    requires DistinctKeys(s, key)
    requires t in s
    ensures multiset(Filter(s, KeyIsNot(key, key(t)))) + multiset{t} == multiset(s)
    ensures KeySet(Filter(s, KeyIsNot(key, key(t))), key) == KeySet(s, key) - {key(t)}
  {
    var k := key(t);
    var f := Filter(s, KeyIsNot(key, k));
    FilterMultiplicity(s, KeyIsNot(key, k));
    DistinctNoDuplicates(s, key);
    forall x
      ensures (multiset(f) + multiset{t})[x] == multiset(s)[x]
    {
      if key(x) == k && x in s {
        KeyIdentifies(s, key, t, x);
      }
    }
    RemoveKeyKeySet(s, key, k);
  }

  lemma RemoveKeyKeySet<T(!new)>(s: seq<T>, key: T -> int, k: int)
    ensures KeySet(Filter(s, KeyIsNot(key, k)), key) == KeySet(s, key) - {k}
  {
    var f := Filter(s, KeyIsNot(key, k));
    FilterMembership(s, KeyIsNot(key, k));
    forall j | j in KeySet(s, key) - {k}
      ensures j in KeySet(f, key)
    {
      var i :| 0 <= i < |s| && key(s[i]) == j;
      KeySetMember(f, key, s[i]);
    }
    forall j | j in KeySet(f, key)
      ensures j in KeySet(s, key) - {k}
    {
      var i :| 0 <= i < |f| && key(f[i]) == j;
      assert f[i] in f;
      KeySetMember(s, key, f[i]);
    }
  }
}

=== FILE: LinkedConsole.dfy ===
/** The console's operations on the pointer-level list: the list is a heap
    with `head` and `tail`, the stacks, queue and counter are as in the
    sequence model. Each operation is shown to do to the tasks from `head` to
    `tail` exactly what the sequence model's operation does to its list. */
module LinkedConsole {
  import opened Wrappers
  import opened LinkedList
  import ConsoleStore

  datatype Machine = Machine(heap: Heap, redo: seq<ConsoleStore.Entry>, done: seq<ConsoleStore.Entry>,
                             queue: seq<int>, counter: int)

  /** The sequence-model state a machine with list nodes `ns` stands for. */
  ghost function Abs(m: Machine, ns: seq<nat>): ConsoleStore.Console
    requires Shape(m.heap, ns)
  {
    ConsoleStore.Console(Contents(m.heap, ns), m.redo, m.done, m.queue, m.counter)
  }

  /** `createList` over an arbitrary heap: null `head` and `tail`. */
  method CreateList(nodes: map<nat, Node>) returns (m: Machine, ghost ns: seq<nat>)
    ensures Shape(m.heap, ns)
    ensures Abs(m, ns) == ConsoleStore.CreateList()
    ensures m.heap.nodes == nodes
  {
    m := Machine(Heap(nodes, Null, Null), [], [], [], 1);
    ns := [];
    EmptyShape(nodes);
  }

  /** `addTask`, with the new node placed at the unused address `cell`. */
  method AddTask(m: Machine, ghost ns: seq<nat>, name: string, priority: int, day: int, month: int, year: int,
                 category: string, cell: nat) returns (r: Machine, ghost rs: seq<nat>)
    requires Shape(m.heap, ns)
    requires cell !in m.heap.nodes
    ensures Shape(r.heap, rs)
    ensures Abs(r, rs) == ConsoleStore.AddTask(Abs(m, ns), name, priority, day, month, year, category)
    ensures r.heap.nodes.Keys == m.heap.nodes.Keys + {cell}
  {
    var (t, next) := ConsoleStore.CreateElement(m.counter, name, priority, day, month, year, category);
    var heap;
    heap, rs := LinkedAdd(m.heap, ns, t, cell);
    r := Machine(heap, m.redo, m.done, m.queue + [t.code], next);
  }

  /** `deleteTask`: unlink and free the node, record it on the redo stack. */
  method DeleteTask(m: Machine, ghost ns: seq<nat>, code: int) returns (r: Machine, ghost rs: seq<nat>)
    requires Shape(m.heap, ns)
    ensures Shape(r.heap, rs)
    ensures Abs(r, rs) == ConsoleStore.DeleteTask(Abs(m, ns), code)
    ensures r.heap.nodes.Keys <= m.heap.nodes.Keys
  {
    var heap, removed;
    heap, rs, removed := LinkedRemove(m.heap, ns, code);
    match removed
    case None =>
      r := m;
    case Some(t) =>
      r := m.(heap := heap, redo := [ConsoleStore.Entry(t.name, t.priority)] + m.redo);
  }

  /** `finishTask`: unlink and free the node, record it on the done stack. */
  method FinishTask(m: Machine, ghost ns: seq<nat>, code: int) returns (r: Machine, ghost rs: seq<nat>)
    requires Shape(m.heap, ns)
    ensures Shape(r.heap, rs)
    ensures Abs(r, rs) == ConsoleStore.FinishTask(Abs(m, ns), code)
    ensures r.heap.nodes.Keys <= m.heap.nodes.Keys
  {
    var heap, removed;
    heap, rs, removed := LinkedRemove(m.heap, ns, code);
    match removed
    case None =>
      r := m;
    case Some(t) =>
      r := m.(heap := heap, done := [ConsoleStore.Entry(t.name, t.priority)] + m.done);
  }

  /** `redo`: pop the redo stack and add its task again, with the node at the
      unused address `cell`. */
  method Redo(m: Machine, ghost ns: seq<nat>, cell: nat) returns (r: Machine, ghost rs: seq<nat>)
    requires Shape(m.heap, ns)
    requires cell !in m.heap.nodes
    ensures m.redo == [] ==> r == m
    ensures m.redo != [] ==>
      && r.redo == m.redo[1..] && r.done == m.done
      && r.counter == m.counter + 1 && r.queue == m.queue + [m.counter]
      && r.heap.nodes.Keys == m.heap.nodes.Keys + {cell}
    ensures Shape(r.heap, rs)
    ensures Abs(r, rs) == ConsoleStore.Redo(Abs(m, ns))
  {
    if m.redo == [] {
      r, rs := m, ns;
      return;
    }
    var e := m.redo[0];
    r, rs := AddTask(m.(redo := m.redo[1..]), ns, e.name, e.priority, 1, 1, 2025, "General", cell);
  }

  /** `searchTask`'s selection over the heap. */
  method SearchTask(m: Machine, ghost ns: seq<nat>, keyword: string) returns (found: seq<ConsoleStore.CTask>)
    requires Shape(m.heap, ns)
    ensures found == ConsoleStore.SearchTask(Abs(m, ns).list, keyword)
  {
    found := LinkedSearch(m.heap, ns, keyword);
  }
}

=== FILE: LinkedList.dfy ===
/** The doubly linked list behind the console version: nodes live in a heap
    (a map from addresses to nodes), `head` and `tail` point into it, and each
    node links to its neighbours through `prev` and `next`. A ghost sequence
    of addresses names the nodes from `head` to `tail`; `Shape` says the links
    agree with it, and `Contents` reads the tasks off it, which is the list the
    sequence model of the console works on. */
module LinkedList {
  import opened Wrappers
  import opened Seqs
  import opened Sorting
  import opened Ids
  import opened Text
  import opened ConsoleStore

  datatype Ptr = Null | Addr(a: nat)

  datatype Node = Node(task: CTask, prev: Ptr, next: Ptr)

  datatype Heap = Heap(nodes: map<nat, Node>, head: Ptr, tail: Ptr)

  /** The pointer to the `i`-th node, or null just outside either end. */
  function PtrAt(ns: seq<nat>, i: int): Ptr {
    if 0 <= i < |ns| then Addr(ns[i]) else Null
  }

  /** The heap holds a well-linked doubly linked list whose nodes, from `head`
      to `tail`, are at the distinct addresses `ns`. */
  ghost predicate Shape(h: Heap, ns: seq<nat>) {
    && (forall i, j :: 0 <= i < j < |ns| ==> ns[i] != ns[j])
    && (forall i :: 0 <= i < |ns| ==> ns[i] in h.nodes)
    && h.head == PtrAt(ns, 0)
    && h.tail == PtrAt(ns, |ns| - 1)
    && (forall i {:trigger h.nodes[ns[i]]} :: 0 <= i < |ns| ==> h.nodes[ns[i]].prev == PtrAt(ns, i - 1))
    && (forall i {:trigger h.nodes[ns[i]]} :: 0 <= i < |ns| ==> h.nodes[ns[i]].next == PtrAt(ns, i + 1))
  }

  /** The tasks in list order. */
  ghost function Contents(h: Heap, ns: seq<nat>): (r: seq<CTask>)
    requires forall i :: 0 <= i < |ns| ==> ns[i] in h.nodes
    ensures |r| == |ns|
    ensures forall i :: 0 <= i < |ns| ==> r[i] == h.nodes[ns[i]].task
    decreases |ns|
  {
    if ns == [] then [] else [h.nodes[ns[0]].task] + Contents(h, ns[1..])
  }

  /** The list `createList` starts with. */
  lemma EmptyShape(nodes: map<nat, Node>)
    ensures Shape(Heap(nodes, Null, Null), [])
    ensures Contents(Heap(nodes, Null, Null), []) == []
  {
  }

  /** The walk of `addTask`: from `head`, skip every node whose priority is at
      most `priority`. It stops at the insertion point of the sequence model. */
  method FindSlot(h: Heap, ghost ns: seq<nat>, t: CTask) returns (p: Ptr, ghost k: nat)
    requires Shape(h, ns)
    ensures p == PtrAt(ns, InsertionPoint(Contents(h, ns), t, PriorityAtMost))
    ensures k == InsertionPoint(Contents(h, ns), t, PriorityAtMost)
    ensures p == PtrAt(ns, k)
  {
    ghost var s := Contents(h, ns);
    p := h.head;
    k := 0;
    while p != Null && h.nodes[p.a].task.priority <= t.priority
      invariant 0 <= k <= |ns|
      invariant p == PtrAt(ns, k)
      invariant forall i :: 0 <= i < k ==> PriorityAtMost(s[i], t)
      decreases |ns| - k
    {
      p := h.nodes[p.a].next;
      k := k + 1;
    }
    InsertionPointUnique(s, t, k);
  }

  /** The new node becomes the tail, linked after the old tail. */
  function LinkAtTail(h: Heap, t: CTask, cell: nat): Heap
    requires h.tail.Addr? && h.tail.a in h.nodes
  {
    var last := h.tail.a;
    Heap(h.nodes[last := h.nodes[last].(next := Addr(cell))][cell := Node(t, h.tail, Null)], h.head, Addr(cell))
  }

  /** The new node becomes the head, linked in front of the old head. */
  function LinkAtHead(h: Heap, t: CTask, cell: nat): Heap
    requires h.head.Addr? && h.head.a in h.nodes
  {
    var first := h.head.a;
    var withNew := h.nodes[cell := Node(t, Null, h.head)];
    Heap(withNew[first := withNew[first].(prev := Addr(cell))], Addr(cell), h.tail)
  }

  /** The new node is linked between the node at `p` and its predecessor. */
  function LinkBefore(h: Heap, p: Ptr, t: CTask, cell: nat): Heap
    requires p.Addr? && p.a in h.nodes
    requires h.nodes[p.a].prev.Addr? && h.nodes[p.a].prev.a in h.nodes
  {
    var q := h.nodes[p.a].prev;
    var withNew := h.nodes[cell := Node(t, q, p)];
    var withPrev := withNew[q.a := withNew[q.a].(next := Addr(cell))];
    Heap(withPrev[p.a := withPrev[p.a].(prev := Addr(cell))], h.head, h.tail)
  }

  /** The body of `addTask` on the list: the node for `t`, allocated at the
      unused address `cell`, is linked in front of the first node whose
      priority exceeds its own, found by walking from `head`, or at the tail
      when there is none. The tasks become the sequence model's insertion,
      and the only address the list gains is `cell`. */
  method LinkedAdd(h: Heap, ghost ns: seq<nat>, t: CTask, cell: nat) returns (r: Heap, ghost rs: seq<nat>)
    requires Shape(h, ns)
    requires cell !in h.nodes
    ensures Shape(r, rs)
    ensures Contents(r, rs) == Insert(Contents(h, ns), t, PriorityAtMost)
    ensures r.nodes.Keys == h.nodes.Keys + {cell}
    ensures forall a :: a in h.nodes && a !in ns ==> r.nodes[a] == h.nodes[a]
  {
    ghost var k;
    if h.head == Null {
      r := Heap(h.nodes[cell := Node(t, Null, Null)], Addr(cell), Addr(cell));
      k := 0;
      EmptySplice(h, ns, t, cell);
    } else {
      var p;
      p, k := FindSlot(h, ns, t);
      if p == Null {
        r := LinkAtTail(h, t, cell);
        TailSplice(h, ns, t, cell);
      } else if p == h.head {
        SameAddressSameIndex(h, ns, k, 0);
        r := LinkAtHead(h, t, cell);
        HeadSplice(h, ns, t, cell);
      } else {
        BeforeSplice(h, ns, t, cell, k);
        r := LinkBefore(h, p, t, cell);
      }
    }
    rs := Splice(ns, k, cell);
    SpliceIsInsert(h, ns, t, cell, k, r);
    SplicedFrame(h, ns, t, cell, k, r);
  }

  /** Splicing in the new node leaves every node off the list as it was. */
  lemma SplicedFrame(h: Heap, ns: seq<nat>, t: CTask, cell: nat, k: nat, r: Heap)
    requires Shape(h, ns) && k <= |ns|
    requires SplicedIn(h, ns, t, cell, k, r)
    ensures forall a :: a in h.nodes && a !in ns ==> r.nodes[a] == h.nodes[a]
  {
    forall a | a in h.nodes && a !in ns
      ensures r.nodes[a] == h.nodes[a]
    {
      assert 0 < k ==> ns[k - 1] in ns;
      assert k < |ns| ==> ns[k] in ns;
    }
  }

  /** The walk's stopping index is the insertion point. */
  lemma InsertionPointUnique(s: seq<CTask>, t: CTask, k: nat)
    requires k <= |s|
    requires forall i :: 0 <= i < k ==> PriorityAtMost(s[i], t)
    requires k < |s| ==> !PriorityAtMost(s[k], t)
    ensures k == InsertionPoint(s, t, PriorityAtMost)
  {
  }

  /** Distinct addresses: a node's address tells its position. */
  lemma SameAddressSameIndex(h: Heap, ns: seq<nat>, i: nat, j: nat)
    requires Shape(h, ns) && i < |ns| && j < |ns|
    requires ns[i] == ns[j]
    ensures i == j
  {
  }

  /** The heap after linking a new node at `cell` in front of the `k`-th
      node (or at the end when `k == |ns|`): its neighbours, if any, point at
      it, `head` or `tail` move to it when it is first or last, and nothing
      else changes. */
  ghost predicate SplicedIn(h: Heap, ns: seq<nat>, t: CTask, cell: nat, k: nat, r: Heap)
    requires Shape(h, ns) && k <= |ns|
  {
    && cell !in h.nodes
    && r.head == (if k == 0 then Addr(cell) else h.head)
    && r.tail == (if k == |ns| then Addr(cell) else h.tail)
    && r.nodes.Keys == h.nodes.Keys + {cell}
    && r.nodes[cell] == Node(t, PtrAt(ns, k - 1), PtrAt(ns, k))
    && (0 < k ==> r.nodes[ns[k - 1]] == h.nodes[ns[k - 1]].(next := Addr(cell)))
    && (k < |ns| ==> r.nodes[ns[k]] == h.nodes[ns[k]].(prev := Addr(cell)))
    && forall a :: a in h.nodes && Addr(a) != PtrAt(ns, k - 1) && Addr(a) != PtrAt(ns, k) ==> r.nodes[a] == h.nodes[a]
  }

  /** `s` with `x` placed at position `k`. */
  function Splice<T>(s: seq<T>, k: nat, x: T): (r: seq<T>)
    requires k <= |s|
    ensures |r| == |s| + 1 && r[k] == x
    ensures forall i :: 0 <= i < k ==> r[i] == s[i]
    ensures forall i :: k < i < |r| ==> r[i] == s[i - 1]
  {
    s[..k] + [x] + s[k..]
  }

  /** One node of the list after splicing in the new node. */
  lemma SplicedNode(h: Heap, ns: seq<nat>, t: CTask, cell: nat, k: nat, r: Heap, i: nat)
    requires Shape(h, ns) && k <= |ns|
    requires SplicedIn(h, ns, t, cell, k, r)
    requires i <= |ns|
    ensures var rs := Splice(ns, k, cell);
      && rs[i] in r.nodes
      && r.nodes[rs[i]].prev == PtrAt(rs, i - 1)
      && r.nodes[rs[i]].next == PtrAt(rs, i + 1)
      && r.nodes[rs[i]].task == Splice(Contents(h, ns), k, t)[i]
  {
    var rs := Splice(ns, k, cell);
    if i + 1 < k {
      assert rs[i] == ns[i] && ns[i] != ns[k - 1] && Addr(ns[i]) != PtrAt(ns, k);
      assert r.nodes[ns[i]] == h.nodes[ns[i]];
    } else if i + 1 == k {
      assert rs[i] == ns[i];
    } else if i == k {
    } else if i == k + 1 {
      assert rs[i] == ns[k];
    } else {
      assert rs[i] == ns[i - 1] && ns[i - 1] != ns[k] && Addr(ns[i - 1]) != PtrAt(ns, k - 1);
      assert r.nodes[ns[i - 1]] == h.nodes[ns[i - 1]];
    }
  }

  lemma SplicedLinks(h: Heap, ns: seq<nat>, t: CTask, cell: nat, k: nat, r: Heap)
    requires Shape(h, ns) && k <= |ns|
    requires SplicedIn(h, ns, t, cell, k, r)
    ensures var rs := Splice(ns, k, cell);
      && (forall i :: 0 <= i < |rs| ==> rs[i] in r.nodes)
      && (forall i {:trigger r.nodes[rs[i]]} :: 0 <= i < |rs| ==>
            r.nodes[rs[i]].prev == PtrAt(rs, i - 1) && r.nodes[rs[i]].next == PtrAt(rs, i + 1))
  {
    var rs := Splice(ns, k, cell);
    forall i | 0 <= i < |rs|
      ensures rs[i] in r.nodes
      ensures r.nodes[rs[i]].prev == PtrAt(rs, i - 1) && r.nodes[rs[i]].next == PtrAt(rs, i + 1)
    {
      SplicedNode(h, ns, t, cell, k, r, i);
    }
  }

  /** A splice of an unused address keeps the addresses distinct. */
  lemma SpliceDistinct(ns: seq<nat>, k: nat, cell: nat)
    requires k <= |ns|
    requires forall i, j :: 0 <= i < j < |ns| ==> ns[i] != ns[j]
    requires forall i :: 0 <= i < |ns| ==> ns[i] != cell
    ensures var rs := Splice(ns, k, cell); forall i, j :: 0 <= i < j < |rs| ==> rs[i] != rs[j]
  {
    var rs := Splice(ns, k, cell);
    forall i, j | 0 <= i < j < |rs|
      ensures rs[i] != rs[j]
    {
      if i != k && j != k {
        assert rs[i] == ns[if i < k then i else i - 1];
        assert rs[j] == ns[if j < k then j else j - 1];
      }
    }
  }

  /** Splicing in the new node keeps the list well linked. */
  lemma SpliceShape(h: Heap, ns: seq<nat>, t: CTask, cell: nat, k: nat, r: Heap)
    requires Shape(h, ns) && k <= |ns|
    requires SplicedIn(h, ns, t, cell, k, r)
    ensures Shape(r, Splice(ns, k, cell))
  {
    var rs := Splice(ns, k, cell);
    SplicedLinks(h, ns, t, cell, k, r);
    SpliceDistinct(ns, k, cell);
    assert rs[0] == if k == 0 then cell else ns[0];
    assert rs[|rs| - 1] == if k == |ns| then cell else ns[|ns| - 1];
    ShapeIntro(r, rs);
  }

  /** The tasks of a list, read node by node. */
  lemma ContentsIntro(r: Heap, rs: seq<nat>, c: seq<CTask>)
    requires forall i :: 0 <= i < |rs| ==> rs[i] in r.nodes
    requires |c| == |rs|
    requires forall i :: 0 <= i < |rs| ==> r.nodes[rs[i]].task == c[i]
    ensures Contents(r, rs) == c
  {
    var cr := Contents(r, rs);
    assert forall i :: 0 <= i < |cr| ==> cr[i] == c[i];
  }

  /** Splicing in the new node puts its task at position `k`. */
  lemma SpliceContents(h: Heap, ns: seq<nat>, t: CTask, cell: nat, k: nat, r: Heap)
    requires Shape(h, ns) && k <= |ns|
    requires SplicedIn(h, ns, t, cell, k, r)
    ensures Shape(r, Splice(ns, k, cell))
    ensures Contents(r, Splice(ns, k, cell)) == Splice(Contents(h, ns), k, t)
  {
    SpliceShape(h, ns, t, cell, k, r);
    var rs := Splice(ns, k, cell);
    var c := Splice(Contents(h, ns), k, t);
    forall i | 0 <= i < |rs|
      ensures r.nodes[rs[i]].task == c[i]
    {
      SplicedNode(h, ns, t, cell, k, r, i);
    }
    ContentsIntro(r, rs, c);
  }

  /** Where the walk stopped, the splice is the sequence model's insertion. */
  lemma SpliceIsInsert(h: Heap, ns: seq<nat>, t: CTask, cell: nat, k: nat, r: Heap)
    requires Shape(h, ns) && k <= |ns|
    requires SplicedIn(h, ns, t, cell, k, r)
    requires k == InsertionPoint(Contents(h, ns), t, PriorityAtMost)
    ensures Shape(r, Splice(ns, k, cell))
    ensures Contents(r, Splice(ns, k, cell)) == Insert(Contents(h, ns), t, PriorityAtMost)
  {
    SpliceContents(h, ns, t, cell, k, r);
    InsertAt(Contents(h, ns), t, PriorityAtMost);
  }

  /** Each of the four cases of `addTask` splices the new node in. */
  lemma EmptySplice(h: Heap, ns: seq<nat>, t: CTask, cell: nat)
    requires Shape(h, ns) && h.head == Null && cell !in h.nodes
    ensures ns == []
    ensures SplicedIn(h, ns, t, cell, 0, Heap(h.nodes[cell := Node(t, Null, Null)], Addr(cell), Addr(cell)))
  {
  }

  lemma TailSplice(h: Heap, ns: seq<nat>, t: CTask, cell: nat)
    requires Shape(h, ns) && |ns| > 0 && cell !in h.nodes
    ensures SplicedIn(h, ns, t, cell, |ns|, LinkAtTail(h, t, cell))
  {
  }

  lemma HeadSplice(h: Heap, ns: seq<nat>, t: CTask, cell: nat)
    requires Shape(h, ns) && |ns| > 0 && cell !in h.nodes
    ensures SplicedIn(h, ns, t, cell, 0, LinkAtHead(h, t, cell))
  {
    assert PtrAt(ns, -1) == Null;
  }

  lemma BeforeSplice(h: Heap, ns: seq<nat>, t: CTask, cell: nat, k: nat)
    requires Shape(h, ns) && 0 < k < |ns| && cell !in h.nodes
    ensures h.nodes[ns[k]].prev.Addr? && h.nodes[ns[k]].prev.a in h.nodes
    ensures SplicedIn(h, ns, t, cell, k, LinkBefore(h, Addr(ns[k]), t, cell))
  {
    assert ns[k - 1] != ns[k];
    LinkBeforeFrame(h, ns[k], ns[k - 1], t, cell);
  }

  /** What `LinkBefore` changes: the new node and the two nodes around it. */
  lemma LinkBeforeFrame(h: Heap, p: nat, q: nat, t: CTask, cell: nat)
    requires p in h.nodes && q in h.nodes && p != q && cell !in h.nodes
    requires h.nodes[p].prev == Addr(q)
    ensures var r := LinkBefore(h, Addr(p), t, cell);
      && r.head == h.head && r.tail == h.tail
      && r.nodes.Keys == h.nodes.Keys + {cell}
      && r.nodes[cell] == Node(t, Addr(q), Addr(p))
      && r.nodes[q] == h.nodes[q].(next := Addr(cell))
      && r.nodes[p] == h.nodes[p].(prev := Addr(cell))
      && forall a :: a in h.nodes && a != q && a != p ==> r.nodes[a] == h.nodes[a]
  {
  }

  /** `Shape` from its parts, for a heap given by name only. */
  lemma ShapeIntro(r: Heap, rs: seq<nat>)
    requires forall i, j :: 0 <= i < j < |rs| ==> rs[i] != rs[j]
    requires r.head == PtrAt(rs, 0) && r.tail == PtrAt(rs, |rs| - 1)
    requires forall i :: 0 <= i < |rs| ==> rs[i] in r.nodes
    requires forall i {:trigger r.nodes[rs[i]]} :: 0 <= i < |rs| ==>
      r.nodes[rs[i]].prev == PtrAt(rs, i - 1) && r.nodes[rs[i]].next == PtrAt(rs, i + 1)
    ensures Shape(r, rs)
  {
  }

  /** `s` without its `k`-th element. */
  function Remove<T>(s: seq<T>, k: nat): (r: seq<T>)
    requires k < |s|
    ensures |r| == |s| - 1
    ensures forall i :: 0 <= i < k ==> r[i] == s[i]
    ensures forall i :: k <= i < |r| ==> r[i] == s[i + 1]
  {
    s[..k] + s[k + 1..]
  }

  /** The walk of `deleteTask` and `finishTask`: from `head`, skip every node
      whose code differs. It stops at the node the sequence model finds, or
      runs off the end exactly when no node carries `code`. */
  method FindCode(h: Heap, ghost ns: seq<nat>, code: int) returns (p: Ptr, ghost k: nat)
    requires Shape(h, ns)
    ensures p == Null <==> code !in KeySet(Contents(h, ns), Code)
    ensures p != Null ==> p == PtrAt(ns, IndexOfCode(Contents(h, ns), code).value)
    ensures k <= |ns| && p == PtrAt(ns, k)
    ensures k == |ns| <==> code !in KeySet(Contents(h, ns), Code)
    ensures k < |ns| ==> IndexOfCode(Contents(h, ns), code) == Some(k)
  {
    ghost var s := Contents(h, ns);
    p := h.head;
    k := 0;
    while p != Null && h.nodes[p.a].task.code != code
      invariant 0 <= k <= |ns|
      invariant p == PtrAt(ns, k)
      invariant forall i :: 0 <= i < k ==> s[i].code != code
      decreases |ns| - k
    {
      p := h.nodes[p.a].next;
      k := k + 1;
    }
    WalkStopsAtCode(s, code, k);
  }

  /** Where a walk that skips nodes of other codes stops: at the position
      `IndexOfCode` reports, or at the end when no node carries `code`. */
  lemma WalkStopsAtCode(s: seq<CTask>, code: int, k: nat)
    requires k <= |s|
    requires forall i :: 0 <= i < k ==> s[i].code != code
    requires k < |s| ==> s[k].code == code
    ensures k == |s| <==> code !in KeySet(s, Code)
    ensures k < |s| ==> IndexOfCode(s, code) == Some(k)
  {
    if k < |s| {
      KeySetMember(s, Code, s[k]);
    } else {
      assert forall i :: 0 <= i < |s| ==> Code(s[i]) != code;
    }
  }

  /** The unlinking step of `deleteTask`: the neighbours of the node at `a` are linked to each
      other (or `head`/`tail` move past it), and the node is freed. */
  function Unlink(h: Heap, a: nat): Heap
    requires a in h.nodes
    requires h.nodes[a].prev.Addr? ==> h.nodes[a].prev.a in h.nodes
    requires h.nodes[a].next.Addr? ==> h.nodes[a].next.a in h.nodes
  {
    var n := h.nodes[a];
    var afterPrev := if n.prev.Addr? then h.nodes[n.prev.a := h.nodes[n.prev.a].(next := n.next)] else h.nodes;
    var head := if n.prev.Addr? then h.head else n.next;
    var afterNext := if n.next.Addr? then afterPrev[n.next.a := afterPrev[n.next.a].(prev := n.prev)] else afterPrev;
    var tail := if n.next.Addr? then h.tail else n.prev;
    Heap(afterNext - {a}, head, tail)
  }

  /** The neighbours of the `k`-th node are in the heap, so it can be unlinked. */
  lemma CanUnlink(h: Heap, ns: seq<nat>, k: nat)
    requires Shape(h, ns) && k < |ns|
    ensures h.nodes[ns[k]].prev == PtrAt(ns, k - 1) && h.nodes[ns[k]].next == PtrAt(ns, k + 1)
    ensures h.nodes[ns[k]].prev.Addr? ==> h.nodes[ns[k]].prev.a in h.nodes
    ensures h.nodes[ns[k]].next.Addr? ==> h.nodes[ns[k]].next.a in h.nodes
  {
  }

  /** Unlinking frees exactly the node's address and moves `head` or `tail`
      only when the node is at that end. */
  lemma UnlinkEnds(h: Heap, ns: seq<nat>, k: nat)
    requires Shape(h, ns) && k < |ns|
    ensures CanUnlinkAt(h, ns, k)
    ensures Unlink(h, ns[k]).nodes.Keys == h.nodes.Keys - {ns[k]}
    ensures Unlink(h, ns[k]).head == (if k == 0 then PtrAt(ns, 1) else h.head)
    ensures Unlink(h, ns[k]).tail == (if k == |ns| - 1 then PtrAt(ns, k - 1) else h.tail)
  {
    CanUnlink(h, ns, k);
    assert 0 < k ==> ns[k - 1] != ns[k];
    assert k + 1 < |ns| ==> ns[k + 1] != ns[k];
  }

  ghost predicate CanUnlinkAt(h: Heap, ns: seq<nat>, k: nat) {
    && k < |ns| && ns[k] in h.nodes
    && (h.nodes[ns[k]].prev.Addr? ==> h.nodes[ns[k]].prev.a in h.nodes)
    && (h.nodes[ns[k]].next.Addr? ==> h.nodes[ns[k]].next.a in h.nodes)
  }

  /** The predecessor now points past the unlinked node. */
  lemma UnlinkPrev(h: Heap, ns: seq<nat>, k: nat)
    requires Shape(h, ns) && 0 < k < |ns|
    ensures CanUnlinkAt(h, ns, k)
    ensures ns[k - 1] in Unlink(h, ns[k]).nodes
    ensures Unlink(h, ns[k]).nodes[ns[k - 1]] == h.nodes[ns[k - 1]].(next := PtrAt(ns, k + 1))
  {
    CanUnlink(h, ns, k);
    assert ns[k - 1] != ns[k];
    assert k + 1 < |ns| ==> ns[k + 1] != ns[k - 1];
  }

  /** The successor now points back past the unlinked node. */
  lemma UnlinkNext(h: Heap, ns: seq<nat>, k: nat)
    requires Shape(h, ns) && k + 1 < |ns|
    ensures CanUnlinkAt(h, ns, k)
    ensures ns[k + 1] in Unlink(h, ns[k]).nodes
    ensures Unlink(h, ns[k]).nodes[ns[k + 1]] == h.nodes[ns[k + 1]].(prev := PtrAt(ns, k - 1))
  {
    CanUnlink(h, ns, k);
    assert ns[k + 1] != ns[k];
  }

  /** Every other node is untouched. */
  lemma UnlinkOther(h: Heap, ns: seq<nat>, k: nat, j: nat)
    requires Shape(h, ns) && k < |ns| && j < |ns|
    requires j != k - 1 && j != k && j != k + 1
    ensures CanUnlinkAt(h, ns, k)
    ensures ns[j] in Unlink(h, ns[k]).nodes
    ensures Unlink(h, ns[k]).nodes[ns[j]] == h.nodes[ns[j]]
  {
    CanUnlink(h, ns, k);
    assert ns[j] != ns[k];
    assert 0 < k ==> ns[j] != ns[k - 1];
    assert k + 1 < |ns| ==> ns[j] != ns[k + 1];
    UnlinkElsewhere(h, ns[k], ns[j]);
  }

  /** Unlinking touches no node but the unlinked one and its two neighbours. */
  lemma UnlinkElsewhere(h: Heap, a: nat, b: nat)
    requires a in h.nodes
    requires h.nodes[a].prev.Addr? ==> h.nodes[a].prev.a in h.nodes
    requires h.nodes[a].next.Addr? ==> h.nodes[a].next.a in h.nodes
    requires b in h.nodes && b != a
    requires h.nodes[a].prev.Addr? ==> b != h.nodes[a].prev.a
    requires h.nodes[a].next.Addr? ==> b != h.nodes[a].next.a
    ensures b in Unlink(h, a).nodes && Unlink(h, a).nodes[b] == h.nodes[b]
  {
  }

  /** One node of the list after unlinking the `k`-th. */
  lemma UnlinkNode(h: Heap, ns: seq<nat>, k: nat, i: nat)
    requires Shape(h, ns) && k < |ns| && i < |ns| - 1
    ensures CanUnlinkAt(h, ns, k)
    ensures var r := Unlink(h, ns[k]);
      var rs := Remove(ns, k);
      && rs[i] in r.nodes
      && r.nodes[rs[i]].prev == PtrAt(rs, i - 1)
      && r.nodes[rs[i]].next == PtrAt(rs, i + 1)
      && r.nodes[rs[i]].task == Remove(Contents(h, ns), k)[i]
  {
    var rs := Remove(ns, k);
    CanUnlink(h, ns, k);
    if i + 1 < k {
      UnlinkOther(h, ns, k, i);
    } else if i + 1 == k {
      UnlinkPrev(h, ns, k);
    } else if i == k {
      UnlinkNext(h, ns, k);
    } else {
      UnlinkOther(h, ns, k, i + 1);
    }
  }

  /** Unlinking the `k`-th node leaves a well-linked list of the others. */
  lemma UnlinkShape(h: Heap, ns: seq<nat>, k: nat)
    requires Shape(h, ns) && k < |ns|
    ensures CanUnlinkAt(h, ns, k)
    ensures Shape(Unlink(h, ns[k]), Remove(ns, k))
    ensures Unlink(h, ns[k]).nodes.Keys == h.nodes.Keys - {ns[k]}
  {
    UnlinkEnds(h, ns, k);
    UnlinkLinks(h, ns, k);
    RemoveDistinct(ns, k);
    RemoveEnds(ns, k);
    ShapeIntro(Unlink(h, ns[k]), Remove(ns, k));
  }

  lemma UnlinkLinks(h: Heap, ns: seq<nat>, k: nat)
    requires Shape(h, ns) && k < |ns|
    ensures CanUnlinkAt(h, ns, k)
    ensures var r := Unlink(h, ns[k]);
      var rs := Remove(ns, k);
      && (forall i :: 0 <= i < |rs| ==> rs[i] in r.nodes)
      && (forall i {:trigger r.nodes[rs[i]]} :: 0 <= i < |rs| ==>
            r.nodes[rs[i]].prev == PtrAt(rs, i - 1) && r.nodes[rs[i]].next == PtrAt(rs, i + 1))
  {
    var r := Unlink(h, ns[k]);
    var rs := Remove(ns, k);
    CanUnlink(h, ns, k);
    forall i | 0 <= i < |rs|
      ensures rs[i] in r.nodes
      ensures r.nodes[rs[i]].prev == PtrAt(rs, i - 1) && r.nodes[rs[i]].next == PtrAt(rs, i + 1)
    {
      UnlinkNode(h, ns, k, i);
    }
  }

  lemma RemoveDistinct(ns: seq<nat>, k: nat)
    requires k < |ns|
    requires forall i, j :: 0 <= i < j < |ns| ==> ns[i] != ns[j]
    ensures var rs := Remove(ns, k); forall i, j :: 0 <= i < j < |rs| ==> rs[i] != rs[j]
  {
    var rs := Remove(ns, k);
    forall i, j | 0 <= i < j < |rs|
      ensures rs[i] != rs[j]
    {
      assert rs[i] == ns[if i < k then i else i + 1];
      assert rs[j] == ns[if j < k then j else j + 1];
    }
  }

  lemma RemoveEnds(ns: seq<nat>, k: nat)
    requires k < |ns|
    ensures PtrAt(Remove(ns, k), 0) == (if k == 0 then PtrAt(ns, 1) else PtrAt(ns, 0))
    ensures PtrAt(Remove(ns, k), |ns| - 2) == (if k == |ns| - 1 then PtrAt(ns, k - 1) else PtrAt(ns, |ns| - 1))
  {
  }

  /** Unlinking the `k`-th node removes exactly its task from the contents. */
  lemma UnlinkContents(h: Heap, ns: seq<nat>, k: nat)
    requires Shape(h, ns) && k < |ns|
    ensures CanUnlinkAt(h, ns, k)
    ensures Shape(Unlink(h, ns[k]), Remove(ns, k))
    ensures Contents(Unlink(h, ns[k]), Remove(ns, k)) == Remove(Contents(h, ns), k)
  {
    UnlinkShape(h, ns, k);
    var cr := Contents(Unlink(h, ns[k]), Remove(ns, k));
    var ch := Remove(Contents(h, ns), k);
    forall i | 0 <= i < |cr|
      ensures cr[i] == ch[i]
    {
      UnlinkNode(h, ns, k, i);
    }
    assert cr == ch;
  }

  /** The body of `deleteTask` and `finishTask` on the list: the first node
      carrying `code` is unlinked and freed and its task handed back; with no
      such node nothing changes. The tasks become the sequence model's
      removal. */
  method LinkedRemove(h: Heap, ghost ns: seq<nat>, code: int) returns (r: Heap, ghost rs: seq<nat>, removed: Option<CTask>)
    requires Shape(h, ns)
    ensures removed.None? <==> code !in KeySet(Contents(h, ns), Code)
    ensures removed.None? ==> r == h
    ensures removed.Some? ==>
      var i := IndexOfCode(Contents(h, ns), code).value;
      && removed == Some(Contents(h, ns)[i])
      && r.nodes.Keys == h.nodes.Keys - {ns[i]}
    ensures forall a :: a in h.nodes && a !in ns ==> a in r.nodes && r.nodes[a] == h.nodes[a]
    ensures Shape(r, rs)
    ensures removed.None? ==> rs == ns
    ensures removed.Some? ==>
      var s := Contents(h, ns);
      var i := IndexOfCode(s, code).value;
      Contents(r, rs) == s[..i] + s[i + 1..]
  {
    var p;
    ghost var k;
    p, k := FindCode(h, ns, code);
    if p == Null {
      r, rs, removed := h, ns, None;
      return;
    }
    removed := Some(h.nodes[p.a].task);
    r := Unlink(h, p.a);
    rs := Remove(ns, k);
    UnlinkShape(h, ns, k);
    UnlinkContents(h, ns, k);
    UnlinkFrame(h, ns, k);
  }

  /** Unlinking a node of the list leaves every node off the list as it was. */
  lemma UnlinkFrame(h: Heap, ns: seq<nat>, k: nat)
    requires Shape(h, ns) && k < |ns|
    ensures CanUnlinkAt(h, ns, k)
    ensures forall a :: a in h.nodes && a !in ns ==>
      a in Unlink(h, ns[k]).nodes && Unlink(h, ns[k]).nodes[a] == h.nodes[a]
  {
    CanUnlink(h, ns, k);
    forall a | a in h.nodes && a !in ns
      ensures a in Unlink(h, ns[k]).nodes && Unlink(h, ns[k]).nodes[a] == h.nodes[a]
    {
      assert ns[k] in ns;
      assert 0 < k ==> ns[k - 1] in ns;
      assert k + 1 < |ns| ==> ns[k + 1] in ns;
    }
  }

  /** The loop of `searchTask`: walks from `head` and collects, in list order,
      the tasks whose name or category contains the keyword. */
  method LinkedSearch(h: Heap, ghost ns: seq<nat>, keyword: string) returns (found: seq<CTask>)
    requires Shape(h, ns)
    ensures found == SearchTask(Contents(h, ns), keyword)
  {
    ghost var s := Contents(h, ns);
    var p := h.head;
    ghost var k := 0;
    found := [];
    while p != Null
      invariant 0 <= k <= |ns|
      invariant p == PtrAt(ns, k)
      invariant found == Filter(s[..k], MatchesKeyword(keyword))
      decreases |ns| - k
    {
      var t := h.nodes[p.a].task;
      FilterPrefixStep(s, k, MatchesKeyword(keyword));
      if Matches(t, keyword) {
        found := found + [t];
      }
      p := h.nodes[p.a].next;
      k := k + 1;
    }
    assert s[..k] == s;
  }
}

=== FILE: Seqs.dfy ===
/** Order-preserving filtering of sequences, shared by the web filter view, the
    console search and the tie classes of the stable sort. */
module Seqs {

  /** The elements of `s` that satisfy `p`, in their original order
      (JavaScript's `Array.prototype.filter`). */
  function Filter<T(!new)>(s: seq<T>, p: T -> bool): (r: seq<T>)
    ensures |r| <= |s|
  {
    if s == [] then []
    else
      assert s == [s[0]] + s[1..];
      (if p(s[0]) then [s[0]] else []) + Filter(s[1..], p)
  }

  /** `r` can be obtained from `s` by deleting elements (order is kept).
      Matching greedily against the earliest equal element is complete. */
  ghost predicate IsSubsequence<T>(r: seq<T>, s: seq<T>)
    decreases |s|
  {
    if r == [] then true
    else if s == [] then false
    else if r[0] == s[0] then IsSubsequence(r[1..], s[1..])
    else IsSubsequence(r, s[1..])
  }

  /** The filter keeps the order of the elements it keeps. */
  lemma {:induction false} FilterIsSubsequence<T(!new)>(s: seq<T>, p: T -> bool)
    ensures IsSubsequence(Filter(s, p), s)
    decreases |s|
  {
    if s != [] {
      FilterIsSubsequence(s[1..], p);
      var r := Filter(s, p);
      if p(s[0]) {
        assert r[0] == s[0] && r[1..] == Filter(s[1..], p);
      } else {
        assert r == Filter(s[1..], p);
        if r != [] {
          FilterMembership(s[1..], p);
          assert r[0] in r;
        }
      }
    }
  }

  /** The filter keeps exactly the elements that satisfy the predicate. */
  lemma {:induction false} FilterMembership<T(!new)>(s: seq<T>, p: T -> bool)
    ensures forall x :: x in Filter(s, p) <==> x in s && p(x)
    decreases |s|
  {
    if s != [] {
      FilterMembership(s[1..], p);
      assert s == [s[0]] + s[1..];
    }
  }

  /** Each element kept by the filter keeps its full multiplicity; each element
      dropped disappears entirely. */
  lemma {:induction false} FilterMultiplicity<T(!new)>(s: seq<T>, p: T -> bool)
    ensures forall x :: multiset(Filter(s, p))[x] == if p(x) then multiset(s)[x] else 0
    decreases |s|
  {
    if s != [] {
      FilterMultiplicity(s[1..], p);
      assert s == [s[0]] + s[1..];
    }
  }

  lemma {:induction false} FilterAppend<T(!new)>(a: seq<T>, b: seq<T>, p: T -> bool)
    ensures Filter(a + b, p) == Filter(a, p) + Filter(b, p)
    decreases |a|
  {
    if a == [] {
      assert a + b == b;
    } else {
      var head := if p(a[0]) then [a[0]] else [];
      assert (a + b)[0] == a[0];
      assert (a + b)[1..] == a[1..] + b;
      FilterAppend(a[1..], b, p);
      calc {
        Filter(a + b, p);
        head + Filter(a[1..] + b, p);
        head + (Filter(a[1..], p) + Filter(b, p));
        (head + Filter(a[1..], p)) + Filter(b, p);
      }
    }
  }

  /** Filtering one more element of a prefix, as a front-to-back walk does. */
  lemma FilterPrefixStep<T(!new)>(s: seq<T>, k: nat, p: T -> bool)
    requires k < |s|
    ensures Filter(s[..k + 1], p) == Filter(s[..k], p) + (if p(s[k]) then [s[k]] else [])
  {
    assert s[..k + 1] == s[..k] + [s[k]];
    FilterAppend(s[..k], [s[k]], p);
  }

  /** Filtering out the one rejected element removes exactly that element. */
  lemma {:induction false} FilterDropOne<T(!new)>(s: seq<T>, i: nat, p: T -> bool)
    requires i < |s| && !p(s[i])
    requires forall j :: 0 <= j < |s| && j != i ==> p(s[j])
    ensures Filter(s, p) == s[..i] + s[i + 1..]
    decreases i
  {
    if i == 0 {
      assert forall x :: x in s[1..] ==> p(x);
      FilterAll(s[1..], p);
    } else {
      FilterDropOne(s[1..], i - 1, p);
      assert s[..i] == [s[0]] + s[1..][..i - 1];
      assert s[i + 1..] == s[1..][i..];
    }
  }

  /** A filter whose predicate accepts every element is the identity. */
  lemma {:induction false} FilterAll<T(!new)>(s: seq<T>, p: T -> bool)
    requires forall x :: x in s ==> p(x)
    ensures Filter(s, p) == s
    decreases |s|
  {
    if s != [] {
      FilterAll(s[1..], p);
    }
  }

  /** A filter whose predicate rejects every element is empty. */
  lemma {:induction false} FilterNone<T(!new)>(s: seq<T>, p: T -> bool)
    requires forall x :: x in s ==> !p(x)
    ensures Filter(s, p) == []
    decreases |s|
  {
    if s != [] {
      FilterNone(s[1..], p);
    }
  }
}

=== FILE: Sorting.dfy ===
/** Stable sorting by a comparator, as `Array.prototype.sort` performs it since
    ECMAScript 2019 (equal elements keep their relative order), and the
    insertion step that both the sort and the console list's `addTask` use. */
module Sorting {
  import opened Seqs

  /** `le` is a total preorder: any two elements compare, and comparison chains. */
  ghost predicate TotalPreorder<T(!new)>(le: (T, T) -> bool) {
    && (forall a, b :: le(a, b) || le(b, a))
    && (forall a, b, c :: le(a, b) && le(b, c) ==> le(a, c))
  }

  ghost predicate Sorted<T>(s: seq<T>, le: (T, T) -> bool) {
    forall i, j :: 0 <= i < j < |s| ==> le(s[i], s[j])
  }

  /** The elements that compare equal to `u`: neither sorts before the other. */
  function TiedWith<T>(le: (T, T) -> bool, u: T): T -> bool {
    x => le(x, u) && le(u, x)
  }

  /** `r` is what a stable sort of `s` by `le` returns: a permutation of `s`,
      ordered by `le`, in which every class of tied elements appears in the
      same order as in `s`. */
  ghost predicate IsStableSortOf<T(!new)>(r: seq<T>, s: seq<T>, le: (T, T) -> bool) {
    && multiset(r) == multiset(s)
    && Sorted(r, le)
    && forall u :: Filter(r, TiedWith(le, u)) == Filter(s, TiedWith(le, u))
  }

  /** Where a walk from the front that skips every element `le` the new one
      stops: the first element that sorts strictly after `x`, or the end. */
  function InsertionPoint<T>(s: seq<T>, x: T, le: (T, T) -> bool): (k: nat)
    ensures k <= |s|
    ensures forall i :: 0 <= i < k ==> le(s[i], x)
    ensures k < |s| ==> !le(s[k], x)
  {
    if s == [] || !le(s[0], x) then 0 else 1 + InsertionPoint(s[1..], x, le)
  }

  /** Inserts `x` after every leading element that does not sort after it. */
  function Insert<T>(s: seq<T>, x: T, le: (T, T) -> bool): (r: seq<T>)
  {
    if s == [] then [x]
    else if le(s[0], x) then
      assert s == [s[0]] + s[1..];
      [s[0]] + Insert(s[1..], x, le)
    else [x] + s
  }

  /** The insertion splices `x` in at the insertion point and moves nothing else. */
  lemma {:induction false} InsertAt<T>(s: seq<T>, x: T, le: (T, T) -> bool)
    ensures var k := InsertionPoint(s, x, le); Insert(s, x, le) == s[..k] + [x] + s[k..]
    decreases |s|
  {
    var k := InsertionPoint(s, x, le);
    if s == [] {
      assert Insert(s, x, le) == [x];
    } else if le(s[0], x) {
      var t := s[1..];
      InsertAt(t, x, le);
      var k' := InsertionPoint(t, x, le);
      assert k == k' + 1;
      calc {
        Insert(s, x, le);
        [s[0]] + Insert(t, x, le);
        [s[0]] + (t[..k'] + [x] + t[k'..]);
        { assert [s[0]] + t[..k'] == s[..k]; assert t[k'..] == s[k..]; }
        s[..k] + [x] + s[k..];
      }
    } else {
      assert k == 0;
      assert Insert(s, x, le) == [x] + s;
      assert s[..k] == [] && s[k..] == s;
    }
  }

  /** Insertion adds exactly one occurrence of `x` and loses nothing. */
  lemma {:induction false} InsertPermutes<T>(s: seq<T>, x: T, le: (T, T) -> bool)
    ensures multiset(Insert(s, x, le)) == multiset(s) + multiset{x}
    decreases |s|
  {
    if s != [] {
      assert s == [s[0]] + s[1..];
      if le(s[0], x) {
        InsertPermutes(s[1..], x, le);
      }
    }
  }

  /** Inserting into a sorted sequence keeps it sorted. */
  lemma InsertSorted<T(!new)>(s: seq<T>, x: T, le: (T, T) -> bool)
    requires TotalPreorder(le)
    requires Sorted(s, le)
    ensures Sorted(Insert(s, x, le), le)
  {
    var k := InsertionPoint(s, x, le);
    var r := Insert(s, x, le);
    InsertAt(s, x, le);
    forall i, j | 0 <= i < j < |r|
      ensures le(r[i], r[j])
    {
      if j < k {
        assert r[i] == s[i] && r[j] == s[j];
      } else if j == k {
        assert r[i] == s[i] && r[j] == x;
      } else if i > k {
        assert r[i] == s[i - 1] && r[j] == s[j - 1];
      } else if i == k {
        assert r[i] == x && r[j] == s[j - 1];
        assert le(x, s[k]);
        assert le(s[k], s[k]);
      } else {
        assert r[i] == s[i] && r[j] == s[j - 1];
      }
    }
  }

  /** In a sorted sequence nothing at or after the insertion point sorts
      before-or-equal to `x`, so none of it is tied with an element tied with `x`. */
  lemma NoTiesAfterInsertionPoint<T(!new)>(s: seq<T>, x: T, le: (T, T) -> bool, u: T)
    requires TotalPreorder(le)
    requires Sorted(s, le)
    requires TiedWith(le, u)(x)
    ensures Filter(s[InsertionPoint(s, x, le)..], TiedWith(le, u)) == []
  {
    var k := InsertionPoint(s, x, le);
    forall y | y in s[k..]
      ensures !TiedWith(le, u)(y)
    {
      var j :| k <= j < |s| && s[j] == y;
      if k < j {
        assert le(s[k], s[j]);
      }
    }
    FilterNone(s[k..], TiedWith(le, u));
  }

  /** How a filter sees an insertion: the part before the insertion point,
      then `x`, then the rest. */
  lemma FilterInsert<T(!new)>(s: seq<T>, x: T, le: (T, T) -> bool, p: T -> bool)
    ensures var k := InsertionPoint(s, x, le);
      && Filter(Insert(s, x, le), p) == Filter(s[..k], p) + Filter([x], p) + Filter(s[k..], p)
      && Filter(s, p) == Filter(s[..k], p) + Filter(s[k..], p)
  {
    var k := InsertionPoint(s, x, le);
    var front, back := s[..k], s[k..];
    InsertAt(s, x, le);
    assert s == front + back;
    FilterAppend(front, back, p);
    FilterAppend(front + [x], back, p);
    FilterAppend(front, [x], p);
  }

  /** The inserted element lands after every element already tied with it. */
  lemma InsertTies<T(!new)>(s: seq<T>, x: T, le: (T, T) -> bool, u: T)
    requires TotalPreorder(le)
    requires Sorted(s, le)
    ensures Filter(Insert(s, x, le), TiedWith(le, u))
         == Filter(s, TiedWith(le, u)) + Filter([x], TiedWith(le, u))
  {
    var k := InsertionPoint(s, x, le);
    var p := TiedWith(le, u);
    FilterInsert(s, x, le, p);
    var front, mid, back := Filter(s[..k], p), Filter([x], p), Filter(s[k..], p);
    if p(x) {
      NoTiesAfterInsertionPoint(s, x, le, u);
    } else {
      assert !(x in mid);
    }
    SwapAroundEmpty(front, mid, back);
  }

  /** When one of two adjacent parts is empty they can trade places. */
  lemma SwapAroundEmpty<T>(a: seq<T>, b: seq<T>, c: seq<T>)
    requires b == [] || c == []
    ensures a + b + c == a + c + b
  {
  }

  lemma InsertStable<T(!new)>(r: seq<T>, s: seq<T>, x: T, le: (T, T) -> bool)
    requires TotalPreorder(le)
    requires IsStableSortOf(r, s, le)
    ensures IsStableSortOf(Insert(r, x, le), s + [x], le)
  {
    InsertSorted(r, x, le);
    InsertPermutes(r, x, le);
    forall u
      ensures Filter(Insert(r, x, le), TiedWith(le, u)) == Filter(s + [x], TiedWith(le, u))
    {
      InsertTies(r, x, le, u);
      FilterAppend(s, [x], TiedWith(le, u));
    }
  }

  /** Insertion sort that inserts each element, in input order, after the
      elements already placed that do not sort after it. */
  function Sort<T(!new)>(s: seq<T>, le: (T, T) -> bool): (r: seq<T>)
    requires TotalPreorder(le)
    ensures IsStableSortOf(r, s, le)
    decreases |s|
  {
    if s == [] then []
    else
      var init := s[..|s| - 1];
      var r := Sort(init, le);
      InsertStable(r, init, s[|s| - 1], le);
      assert init + [s[|s| - 1]] == s;
      Insert(r, s[|s| - 1], le)
  }

  /** Appending an element that no element sorts after is the same as inserting it. */
  lemma InsertAtEnd<T>(s: seq<T>, x: T, le: (T, T) -> bool)
    requires forall i :: 0 <= i < |s| ==> le(s[i], x)
    ensures Insert(s, x, le) == s + [x]
  {
    var k := InsertionPoint(s, x, le);
    InsertAt(s, x, le);
    assert k == |s|;
    assert s[..k] == s;
  }

  /** Sorting a sequence that is already sorted changes nothing. */
  lemma {:induction false} SortSortedIsIdentity<T(!new)>(s: seq<T>, le: (T, T) -> bool)
    requires TotalPreorder(le)
    requires Sorted(s, le)
    ensures Sort(s, le) == s
    decreases |s|
  {
    if s != [] {
      var init := s[..|s| - 1];
      assert Sorted(init, le);
      SortSortedIsIdentity(init, le);
      InsertAtEnd(init, s[|s| - 1], le);
      assert init + [s[|s| - 1]] == s;
    }
  }

  /** Appending to a sorted sequence and re-sorting is a single insertion: the
      new element lands immediately after the last element that does not sort
      after it, and all other elements keep their order. */
  lemma AppendThenSort<T(!new)>(s: seq<T>, x: T, le: (T, T) -> bool)
    requires TotalPreorder(le)
    requires Sorted(s, le)
    ensures Sort(s + [x], le) == Insert(s, x, le)
  {
    assert (s + [x])[..|s|] == s;
    SortSortedIsIdentity(s, le);
  }

  /** Every subsequence of a sorted sequence is sorted; removing elements keeps order. */
  lemma FilterKeepsSorted<T(!new)>(s: seq<T>, p: T -> bool, le: (T, T) -> bool)
    requires Sorted(s, le)
    ensures Sorted(Filter(s, p), le)
    decreases |s|
  {
    if s != [] {
      FilterKeepsSorted(s[1..], p, le);
      var f := Filter(s[1..], p);
      FilterMembership(s[1..], p);
      forall y | y in f
        ensures le(s[0], y)
      {
        var j :| 0 <= j < |s[1..]| && s[1..][j] == y;
        assert s[j + 1] == y;
      }
    }
  }
}

=== FILE: TaskForm.dfy ===
/** The add-task form (src/components/TaskForm.tsx): its starting state and
    `handleSubmit`, the guard that decides whether `addTask` runs at all. */
module TaskForm {
  import opened Wrappers
  import opened Text
  import opened Sorting
  import opened WebStore
  import opened WebInvariant

  /** The controlled form state. The deadline is the raw value of the date
      input: the empty string until the user picks a date. */
  datatype FormData = FormData(name: string, priority: int, deadline: string, category: string)

  /** The form as written starts with an empty name, priority 1, no deadline and
      the category label `Pekerjaan`. */
  function InitialForm(): FormData {
    FormData("", 1, "", "Pekerjaan")
  }

  /** `handleSubmit`: rejects a name that trims to nothing or an empty deadline;
      otherwise builds the draft from the trimmed name, the priority and the
      category as they are, and the parsed deadline. `parseDate` stands for
      `new Date(deadline).getTime()`. */
  function HandleSubmit(f: FormData, parseDate: string -> int): (r: Option<Draft>)
    ensures r.None? <==> AllWhitespace(f.name) || f.deadline == ""
    ensures r.Some? ==>
      && r.value.name != "" && r.value.name == Trim(f.name)
      && !IsWhitespace(r.value.name[0]) && !IsWhitespace(r.value.name[|r.value.name| - 1])
      && r.value.priority == f.priority && r.value.category == f.category
      && r.value.deadline == parseDate(f.deadline)
  {
    var name := Trim(f.name);
    if name == "" || f.deadline == "" then None
    else Some(Draft(name, f.priority, parseDate(f.deadline), f.category))
  }

  /** Submitting the form against a store: `onSubmit` is `addTask`. A rejected
      submission leaves the store exactly as it was; an accepted one adds a
      task whose name is the trimmed input. */
  function Submit(st: Store, f: FormData, parseDate: string -> int): (r: Store)
    ensures AllWhitespace(f.name) || f.deadline == "" ==> r == st
    ensures !(AllWhitespace(f.name) || f.deadline == "") ==>
      && r.counter == st.counter + 1
      && Task(st.counter, Trim(f.name), f.priority, parseDate(f.deadline), f.category, false) in r.active
      && Sorted(r.active, PriorityLe)
      && IsStableSortOf(r.active,
           st.active + [Task(st.counter, Trim(f.name), f.priority, parseDate(f.deadline), f.category, false)], PriorityLe)
      && r.completed == st.completed && r.deleted == st.deleted
  {
    match HandleSubmit(f, parseDate)
    case None => st
    case Some(d) =>
      var r := AddTask(st, d);
      var t := Task(st.counter, d.name, d.priority, d.deadline, d.category, false);
      assert t in multiset(st.active + [t]);
      r
  }

  /** A submission never breaks the store's invariant. */
  lemma SubmitKeepsValid(st: Store, f: FormData, parseDate: string -> int)
    requires Valid(st)
    ensures Valid(Submit(st, f, parseDate))
  {
    match HandleSubmit(f, parseDate)
    case None =>
    case Some(d) => AddKeepsValid(st, d);
  }

  /** The untouched form cannot be submitted: its name is empty. */
  lemma InitialFormRejected(parseDate: string -> int)
    ensures HandleSubmit(InitialForm(), parseDate) == None
    ensures HandleSubmit(IntendedInitialForm(), parseDate) == None
  {
  }

  /** A form whose only edits are a name and a date submits the starting
      category, and `Pekerjaan` is none of the labels the page offers, so the
      new task matches no category filter other than `all`. */
  lemma DefaultCategoryNotOffered(name: string, deadline: string, parseDate: string -> int)
    requires !AllWhitespace(name) && deadline != ""
    ensures var r := HandleSubmit(InitialForm().(name := name, deadline := deadline), parseDate);
      r.Some? && r.value.category !in Categories && r.value.priority == 1
  {
  }

  /** The starting state the category selector displays: the first offered label. */
  function IntendedInitialForm(): FormData {
    FormData("", 1, "", Categories[0])
  }

  /** With the intended starting category, a form whose only edits are a name
      and a date submits an offered category and priority 1. */
  lemma IntendedDefaultCategoryOffered(name: string, deadline: string, parseDate: string -> int)
    requires !AllWhitespace(name) && deadline != ""
    ensures var r := HandleSubmit(IntendedInitialForm().(name := name, deadline := deadline), parseDate);
      r.Some? && r.value.category in Categories && r.value.priority == 1
  {
  }
}

=== FILE: TaskView.dfy ===
/** The derived view of the active list on the web page (`filteredTasks` and
    `sortedTasks` in src/components/TaskManager.tsx): a search over name and
    category that ignores case, a category filter, and a stable sort of a copy
    by the selected key. Nothing here changes the store. */
module TaskView {
  import opened Seqs
  import opened Sorting
  import opened Text
  import opened Ids
  import opened WebStore
  import opened WebInvariant

  datatype SortKey = ByPriority | ByDeadline | ByName

  /** Lexicographic order on code points, standing in for `localeCompare`. */
  predicate NameLe(a: string, b: string)
    decreases |a|
  {
    a == [] || (b != [] && (a[0] < b[0] || (a[0] == b[0] && NameLe(a[1..], b[1..]))))
  }

  lemma {:induction false} NameLeTotal(a: string, b: string)
    ensures NameLe(a, b) || NameLe(b, a)
    decreases |a|
  {
    if a != [] && b != [] && a[0] == b[0] {
      NameLeTotal(a[1..], b[1..]);
    }
  }

  lemma {:induction false} NameLeTransitive(a: string, b: string, c: string)
    requires NameLe(a, b) && NameLe(b, c)
    ensures NameLe(a, c)
    decreases |a|
  {
    if a != [] && b != [] && c != [] && a[0] == b[0] && b[0] == c[0] {
      NameLeTransitive(a[1..], b[1..], c[1..]);
    }
  }

  function DeadlineLe(a: Task, b: Task): bool { a.deadline <= b.deadline }

  function NameOrderLe(a: Task, b: Task): bool { NameLe(a.name, b.name) }

  /** The comparator `sortedTasks` uses for each choice of the sort selector. */
  function Order(key: SortKey): (Task, Task) -> bool {
    match key
    case ByPriority => PriorityLe
    case ByDeadline => DeadlineLe
    case ByName => NameOrderLe
  }

  /** Every selectable comparator is a total preorder, so sorting by it is well defined. */
  lemma OrderIsTotalPreorder(key: SortKey)
    ensures TotalPreorder(Order(key))
  {
    if key == ByName {
      forall a: Task, b: Task
        ensures NameOrderLe(a, b) || NameOrderLe(b, a)
      {
        NameLeTotal(a.name, b.name);
      }
      forall a: Task, b: Task, c: Task | NameOrderLe(a, b) && NameOrderLe(b, c)
        ensures NameOrderLe(a, c)
      {
        NameLeTransitive(a.name, b.name, c.name);
      }
    }
  }

  /** The lower-cased search term occurs in the lower-cased name or category. */
  predicate MatchesSearch(t: Task, term: string) {
    Includes(Lower(t.name), Lower(term)) || Includes(Lower(t.category), Lower(term))
  }

  /** The category selector is `all` or names the task's category exactly. */
  predicate MatchesCategory(t: Task, category: string) {
    category == "all" || t.category == category
  }

  function Keep(term: string, category: string): Task -> bool {
    t => MatchesSearch(t, term) && MatchesCategory(t, category)
  }

  /** `filteredTasks`: the active tasks that pass both tests, in stored order,
      each kept with its full multiplicity and nothing else kept. */
  function FilteredTasks(tasks: seq<Task>, term: string, category: string): (r: seq<Task>)
    ensures forall x ::
      multiset(r)[x] == if MatchesSearch(x, term) && MatchesCategory(x, category) then multiset(tasks)[x] else 0
    ensures forall x :: x in r <==> x in tasks && MatchesSearch(x, term) && MatchesCategory(x, category)
    ensures IsSubsequence(r, tasks)
  {
    FilterMultiplicity(tasks, Keep(term, category));
    FilterMembership(tasks, Keep(term, category));
    FilterIsSubsequence(tasks, Keep(term, category));
    Filter(tasks, Keep(term, category))
  }

  /** `sortedTasks`: a stable sort of a copy of the filtered list by the selected key. */
  function SortedTasks(tasks: seq<Task>, key: SortKey): (r: seq<Task>)
    ensures IsStableSortOf(r, tasks, Order(key))
  {
    OrderIsTotalPreorder(key);
    Sort(tasks, Order(key))
  }

  /** What the active tab shows: exactly the matching active tasks, ordered by
      the selected key. The store itself is not an output: its order stays. */
  function View(st: Store, term: string, category: string, key: SortKey): (r: seq<Task>)
    ensures forall x :: x in r <==> x in st.active && MatchesSearch(x, term) && MatchesCategory(x, category)
    ensures multiset(r) == multiset(FilteredTasks(st.active, term, category))
    ensures Sorted(r, Order(key))
    ensures IsStableSortOf(r, FilteredTasks(st.active, term, category), Order(key))
  {
    var f := FilteredTasks(st.active, term, category);
    var r := SortedTasks(f, key);
    assert forall x :: x in r <==> x in multiset(f);
    r
  }

  /** With an empty search and category `all`, the filter returns the active list unchanged. */
  lemma EmptySearchKeepsAll(tasks: seq<Task>)
    ensures FilteredTasks(tasks, "", "all") == tasks
  {
    forall x | x in tasks
      ensures Keep("", "all")(x)
    {
      IncludesEmpty(Lower(x.name));
    }
    FilterAll(tasks, Keep("", "all"));
  }

  /** A category other than `all` shows only tasks of exactly that category. */
  lemma CategoryFilterIsExact(tasks: seq<Task>, term: string, category: string)
    requires category != "all"
    ensures forall x :: x in FilteredTasks(tasks, term, category) ==> x.category == category
  {
  }

  /** The stored active list is in priority order whenever the view needs it to
      be: sorting the filtered list by priority then returns it unchanged. */
  lemma PriorityViewOfSortedStore(st: Store, term: string, category: string)
    requires Sorted(st.active, PriorityLe)
    ensures View(st, term, category, ByPriority) == FilteredTasks(st.active, term, category)
  {
    FilterKeepsSorted(st.active, Keep(term, category), PriorityLe);
    PriorityLeIsTotalPreorder();
    SortSortedIsIdentity(FilteredTasks(st.active, term, category), PriorityLe);
  }

  /** Once completed, a task never shows in the active view again, whatever
      the search, category or sort; it sits at the head of the completed list
      with `completed` set. */
  lemma CompletedNotInView(st: Store, id: int, term: string, category: string, key: SortKey)
    requires Valid(st)
    requires id in KeySet(st.active, TaskId)
    ensures forall x :: x in View(CompleteTask(st, id), term, category, key) ==> x.id != id
    ensures var c := CompleteTask(st, id).completed[0]; c.id == id && c.completed
  {
  }
}

=== FILE: Text.dfy ===
/** The string operations the stores rely on: whitespace trimming as
    `String.prototype.trim` performs it, lower-casing for the case-insensitive
    search, and substring search (`String.prototype.includes`, `std::string::find`). */
module Text {

  /** The code points ECMAScript counts as WhiteSpace or LineTerminator: tab,
      line feed, vertical tab, form feed, carriage return, the Unicode space
      separators, the line and paragraph separators, and the byte order mark. */
  predicate IsWhitespace(c: char) {
    var n := c as int;
    || n == 0x09 || n == 0x0A || n == 0x0B || n == 0x0C || n == 0x0D
    || n == 0x20 || n == 0xA0 || n == 0x1680 || (0x2000 <= n <= 0x200A)
    || n == 0x2028 || n == 0x2029 || n == 0x202F || n == 0x205F || n == 0x3000
    || n == 0xFEFF
  }

  predicate AllWhitespace(s: string) {
    forall i :: 0 <= i < |s| ==> IsWhitespace(s[i])
  }

  /** How many whitespace characters `s` starts with. */
  function LeadingSpaces(s: string): (n: nat)
    ensures n <= |s|
    ensures forall i :: 0 <= i < n ==> IsWhitespace(s[i])
    ensures n < |s| ==> !IsWhitespace(s[n])
  {
    if s == [] || !IsWhitespace(s[0]) then 0
    else
      var n := LeadingSpaces(s[1..]);
      assert forall i :: 1 <= i < n + 1 ==> s[i] == s[1..][i - 1];
      1 + n
  }

  /** How many whitespace characters `s` ends with. */
  function TrailingSpaces(s: string): (n: nat)
    ensures n <= |s|
    ensures forall i :: |s| - n <= i < |s| ==> IsWhitespace(s[i])
    ensures n < |s| ==> !IsWhitespace(s[|s| - n - 1])
  {
    if s == [] || !IsWhitespace(s[|s| - 1]) then 0
    else
      var n := TrailingSpaces(s[..|s| - 1]);
      assert forall i :: 0 <= i < |s| - 1 ==> s[i] == s[..|s| - 1][i];
      1 + n
  }

  /** `String.prototype.trim`: the slice of `s` between its leading and its
      trailing whitespace. Every character outside the slice is whitespace, the
      slice neither starts nor ends with whitespace, and it is empty exactly
      when `s` is all whitespace. */
  function Trim(s: string): (r: string)
    ensures var a := LeadingSpaces(s); a + |r| <= |s| && r == s[a..a + |r|]
    ensures forall i :: 0 <= i < |s| && !IsWhitespace(s[i]) ==>
      LeadingSpaces(s) <= i < LeadingSpaces(s) + |r|
    ensures r != [] ==> !IsWhitespace(r[0]) && !IsWhitespace(r[|r| - 1])
    ensures r == [] <==> AllWhitespace(s)
  {
    var a := LeadingSpaces(s);
    var b := TrailingSpaces(s[a..]);
    TrimBounds(s, a, b);
    s[a..|s| - b]
  }

  /** Index bookkeeping for `Trim`, stated over the facts the two counts
      guarantee rather than over the counting functions themselves. */
  lemma TrimBounds(s: string, a: nat, b: nat)
    requires a <= |s| && (forall i :: 0 <= i < a ==> IsWhitespace(s[i]))
    requires a < |s| ==> !IsWhitespace(s[a])
    requires b <= |s| - a && (forall i :: |s| - a - b <= i < |s| - a ==> IsWhitespace(s[a..][i]))
    requires b < |s| - a ==> !IsWhitespace(s[a..][|s| - a - b - 1])
    ensures forall i :: 0 <= i < |s| && !IsWhitespace(s[i]) ==> a <= i < |s| - b
    ensures a + b < |s| ==> !IsWhitespace(s[a]) && !IsWhitespace(s[|s| - b - 1])
  {
    var rest := s[a..];
    forall i | |s| - b <= i < |s|
      ensures IsWhitespace(s[i])
    {
      assert s[i] == rest[i - a];
    }
    if a + b < |s| {
      assert s[|s| - b - 1] == rest[|rest| - b - 1];
    }
  }

  /** Trimming twice is the same as trimming once. */
  lemma TrimIdempotent(s: string)
    ensures Trim(Trim(s)) == Trim(s)
  {
    var r := Trim(s);
    if r != [] {
      assert LeadingSpaces(r) == 0;
      assert TrailingSpaces(r) == 0;
    }
  }

  /** ASCII lower-casing of one character. */
  function LowerChar(c: char): (d: char)
  {
    if 'A' <= c <= 'Z' then (c as int + 32) as char else c
  }

  /** Lower-cases every character of `s` (ASCII letters only). */
  function Lower(s: string): (r: string)
    ensures |r| == |s|
    ensures forall i :: 0 <= i < |s| ==> r[i] == LowerChar(s[i])
  {
    seq(|s|, i requires 0 <= i < |s| => LowerChar(s[i]))
  }

  /** Lower-casing is idempotent and leaves no upper-case ASCII letter behind. */
  lemma LowerIdempotent(s: string)
    ensures Lower(Lower(s)) == Lower(s)
    ensures forall i :: 0 <= i < |s| ==> !('A' <= Lower(s)[i] <= 'Z')
  {
  }

  /** `t` occurs in `s` as a contiguous block starting at `i`. */
  ghost predicate OccursAt(s: string, t: string, i: int) {
    0 <= i && i + |t| <= |s| && s[i..i + |t|] == t
  }

  /** Substring search: true exactly when `t` occurs somewhere in `s`. The
      empty string occurs in every string, as both `includes` and `find` agree. */
  function Includes(s: string, t: string): (b: bool)
    ensures b <==> exists i :: OccursAt(s, t, i)
    decreases |s|
  {
    if |t| > |s| then
      assert forall i :: !OccursAt(s, t, i);
      false
    else if t == s[..|t|] then
      assert OccursAt(s, t, 0);
      true
    else
      var b := Includes(s[1..], t);
      assert forall i :: OccursAt(s[1..], t, i) <==> OccursAt(s, t, i + 1);
      assert !OccursAt(s, t, 0);
      assert forall i :: OccursAt(s, t, i) ==> i == 0 || OccursAt(s[1..], t, i - 1);
      b
  }

  /** Lower-casing both sides keeps every match: a case-sensitive hit is also
      a case-insensitive hit. */
  lemma LowerKeepsIncludes(s: string, t: string)
    requires Includes(s, t)
    ensures Includes(Lower(s), Lower(t))
  {
    var i :| OccursAt(s, t, i);
    assert Lower(s)[i..i + |t|] == Lower(t);
    assert OccursAt(Lower(s), Lower(t), i);
  }

  /** The empty search term occurs in every string. */
  lemma IncludesEmpty(s: string)
    ensures Includes(s, "")
  {
    assert OccursAt(s, "", 0);
  }
}

=== FILE: Versions.dfy ===
/** How the two versions relate. A console task read as a web task keeps its
    code as id, its name, priority and category; its day, month and year are
    turned into a deadline timestamp by a date function the model does not fix.
    The two versions then place a new task in the same position, and a
    case-sensitive console search hit is always a hit of the web's
    case-insensitive search. */
module Versions {
  import opened Sorting
  import opened Text
  import ConsoleStore
  import WebStore
  import TaskView

  function AsWebTask(c: ConsoleStore.CTask, stamp: (int, int, int) -> int): WebStore.Task {
    WebStore.Task(c.code, c.name, c.priority, stamp(c.day, c.month, c.year), c.category, false)
  }

  /** The console list read as a web list, element by element. */
  function Mirror(s: seq<ConsoleStore.CTask>, stamp: (int, int, int) -> int): (r: seq<WebStore.Task>)
    ensures |r| == |s|
    ensures forall i :: 0 <= i < |s| ==> r[i] == AsWebTask(s[i], stamp)
    decreases |s|
  {
    if s == [] then [] else [AsWebTask(s[0], stamp)] + Mirror(s[1..], stamp)
  }

  /** Reading a list as web tasks keeps it in priority order. */
  lemma MirrorKeepsSorted(s: seq<ConsoleStore.CTask>, stamp: (int, int, int) -> int)
    requires Sorted(s, ConsoleStore.PriorityAtMost)
    ensures Sorted(Mirror(s, stamp), WebStore.PriorityLe)
  {
  }

  /** The console's insertion and the web's insertion agree on mirrored lists. */
  lemma {:induction false} InsertCommutes(s: seq<ConsoleStore.CTask>, c: ConsoleStore.CTask, stamp: (int, int, int) -> int)
    ensures Mirror(Insert(s, c, ConsoleStore.PriorityAtMost), stamp)
         == Insert(Mirror(s, stamp), AsWebTask(c, stamp), WebStore.PriorityLe)
    decreases |s|
  {
    if s != [] && ConsoleStore.PriorityAtMost(s[0], c) {
      InsertCommutes(s[1..], c, stamp);
      assert Mirror(s, stamp) == [AsWebTask(s[0], stamp)] + Mirror(s[1..], stamp);
      assert Mirror(s, stamp)[1..] == Mirror(s[1..], stamp);
    }
  }

  /** Adding the same task to a console and to a web store holding the same
      tasks in the same (priority) order leaves them holding the same tasks in
      the same order again: both insert after every task of equal priority. */
  lemma AddAgrees(c: ConsoleStore.Console, st: WebStore.Store, stamp: (int, int, int) -> int,
                  name: string, priority: int, day: int, month: int, year: int, category: string)
    requires Sorted(c.list, ConsoleStore.PriorityAtMost)
    requires st.active == Mirror(c.list, stamp)
    requires st.counter == c.counter
    ensures WebStore.AddTask(st, WebStore.Draft(name, priority, stamp(day, month, year), category)).active
         == Mirror(ConsoleStore.AddTask(c, name, priority, day, month, year, category).list, stamp)
  {
    var t := ConsoleStore.CTask(c.counter, name, priority, day, month, year, category);
    MirrorKeepsSorted(c.list, stamp);
    WebStore.PriorityLeIsTotalPreorder();
    AppendThenSort(st.active, AsWebTask(t, stamp), WebStore.PriorityLe);
    InsertCommutes(c.list, t, stamp);
  }

  /** A task the console search finds is also found by the web search with the
      same text, whatever the case of its letters. */
  lemma SearchAgrees(c: ConsoleStore.CTask, keyword: string, stamp: (int, int, int) -> int)
    requires ConsoleStore.Matches(c, keyword)
    ensures TaskView.MatchesSearch(AsWebTask(c, stamp), keyword)
  {
    if Includes(c.name, keyword) {
      LowerKeepsIncludes(c.name, keyword);
    } else {
      LowerKeepsIncludes(c.category, keyword);
    }
  }
}

=== FILE: WebInvariant.dfy ===
/** The invariant of the web store and the properties of its handlers:
    ids are unique across the three collections and below the counter, only
    completed tasks carry the completed flag, the active list regains priority
    order on every insertion, and undo restores exactly what delete removed. */
module WebInvariant {
  import opened Seqs
  import opened Sorting
  import opened Ids
  import opened WebStore

  ghost predicate IdsBelow(s: seq<Task>, n: int) {
    forall t :: t in s ==> t.id < n
  }

  ghost predicate AllFlagged(s: seq<Task>, done: bool) {
    forall t :: t in s ==> t.completed == done
  }

  /** Ids are pairwise distinct within and across the three collections and all
      below the counter; only the completed list holds tasks marked completed. */
  ghost predicate Valid(st: Store) {
    && DistinctKeys(st.active, TaskId)
    && DistinctKeys(st.completed, TaskId)
    && DistinctKeys(st.deleted, TaskId)
    && KeySet(st.active, TaskId) !! KeySet(st.completed, TaskId)
    && KeySet(st.active, TaskId) !! KeySet(st.deleted, TaskId)
    && KeySet(st.completed, TaskId) !! KeySet(st.deleted, TaskId)
    && IdsBelow(st.active, st.counter)
    && IdsBelow(st.completed, st.counter)
    && IdsBelow(st.deleted, st.counter)
    && AllFlagged(st.active, false)
    && AllFlagged(st.completed, true)
    && AllFlagged(st.deleted, false)
  }

  /** The invariant says what it promises: no id occurs twice anywhere in the store. */
  lemma ValidIdsUniqueAcrossStore(st: Store)
    requires Valid(st)
    ensures DistinctKeys(st.active + st.completed + st.deleted, TaskId)
    ensures IdsBelow(st.active + st.completed + st.deleted, st.counter)
  {
    DistinctConcat(st.active, st.completed, TaskId);
    DistinctConcat(st.active + st.completed, st.deleted, TaskId);
  }

  lemma BelowNotInKeySet(s: seq<Task>, n: int)
    requires IdsBelow(s, n)
    ensures n !in KeySet(s, TaskId)
  {
  }

  /** Both starting states satisfy the invariant. */
  lemma StartStatesValid()
    ensures Valid(InitialStore())
    ensures Valid(SampleStore())
  {
    var s := SampleStore().active;
    assert KeySet(s, TaskId) == {1, 2, 3} by {
      assert s[0].id == 1 && s[1].id == 2 && s[2].id == 3;
    }
  }

  /** The sample tasks are not in priority order (priorities 1, 3, 2): the active
      list is guaranteed sorted only from the first add or undo on. */
  lemma SampleStoreNotSorted()
    ensures !Sorted(SampleStore().active, PriorityLe)
  {
    var s := SampleStore().active;
    assert !PriorityLe(s[1], s[2]);
  }

  /** Before any add or undo, a delete decides the order: deleting task 1 from
      the sample leaves priorities 3, 2, out of order, while deleting task 3
      leaves 1, 3, in order. */
  lemma SampleDeleteOrder()
    ensures !Sorted(DeleteTask(SampleStore(), 1).active, PriorityLe)
    ensures Sorted(DeleteTask(SampleStore(), 3).active, PriorityLe)
  {
    var s := SampleStore().active;
    SampleDeleteActive(1, 0);
    SampleDeleteActive(3, 2);
    DropFromTriple(s);
    PairSorted(s[1], s[2]);
    PairSorted(s[0], s[1]);
  }

  /** Deleting the sample task at index `i`, whose id is `id`, leaves the
      other two in their order. */
  lemma SampleDeleteActive(id: int, i: nat)
    requires i < 3 && id == i + 1
    ensures var s := SampleStore().active; DeleteTask(SampleStore(), id).active == s[..i] + s[i + 1..]
  {
    var s := SampleStore().active;
    assert s[i].id == id;
    assert FindById(s, id).Some?;
    assert forall j :: 0 <= j < |s| && j != i ==> s[j].id != id;
    FilterDropOne(s, i, KeyIsNot(TaskId, id));
  }

  /** Dropping the first or the last of three elements. */
  lemma DropFromTriple<T>(s: seq<T>)
    requires |s| == 3
    ensures s[..0] + s[1..] == [s[1], s[2]]
    ensures s[..2] + s[3..] == [s[0], s[1]]
  {
  }

  /** A two-task list is in priority order exactly when its first task's
      priority is no larger. */
  lemma PairSorted(a: Task, b: Task)
    ensures Sorted([a, b], PriorityLe) <==> a.priority <= b.priority
  {
    assert [a, b][0] == a && [a, b][1] == b;
  }

  /** Every element of a permutation of `s + [t]` is `t` or an element of `s`. */
  lemma PermutedMembers(r: seq<Task>, s: seq<Task>, t: Task)
    requires multiset(r) == multiset(s + [t])
    ensures forall x :: x in r ==> x in s || x == t
  {
    forall x | x in r
      ensures x in s || x == t
    {
      assert x in multiset(r);
      assert x in multiset(s + [t]);
      assert x in s + [t];
    }
  }

  /** `addTask` keeps the invariant; the id it hands out was never used before. */
  lemma AddKeepsValid(st: Store, d: Draft)
    requires Valid(st)
    ensures st.counter !in KeySet(st.active + st.completed + st.deleted, TaskId)
    ensures Valid(AddTask(st, d))
  {
    var t := Task(st.counter, d.name, d.priority, d.deadline, d.category, false);
    var r := AddTask(st, d);
    ValidIdsUniqueAcrossStore(st);
    BelowNotInKeySet(st.active + st.completed + st.deleted, st.counter);
    BelowNotInKeySet(st.active, st.counter);
    BelowNotInKeySet(st.completed, st.counter);
    BelowNotInKeySet(st.deleted, st.counter);
    KeySetSingleton(t, TaskId);
    DistinctConcat(st.active, [t], TaskId);
    PermutationKeepsDistinct(r.active, st.active + [t], TaskId);
    PermutedMembers(r.active, st.active, t);
  }

  /** `deleteTask` keeps the invariant. */
  lemma DeleteKeepsValid(st: Store, id: int)
    requires Valid(st)
    ensures Valid(DeleteTask(st, id))
  {
    match FindById(st.active, id)
    case None =>
    case Some(t) =>
      var r := DeleteTask(st, id);
      assert r.active == Filter(st.active, KeyIsNot(TaskId, id));
      FilterKeepsDistinct(st.active, KeyIsNot(TaskId, id), TaskId);
      RemoveKeyKeySet(st.active, TaskId, id);
      KeySetMember(st.active, TaskId, t);
      DistinctCons(t, st.deleted, TaskId);
  }

  /** `completeTask` keeps the invariant. */
  lemma CompleteKeepsValid(st: Store, id: int)
    requires Valid(st)
    ensures Valid(CompleteTask(st, id))
  {
    match FindById(st.active, id)
    case None =>
    case Some(t) =>
      var r := CompleteTask(st, id);
      var c := t.(completed := true);
      assert r.active == Filter(st.active, KeyIsNot(TaskId, id));
      assert r.completed == [c] + st.completed;
      FilterKeepsDistinct(st.active, KeyIsNot(TaskId, id), TaskId);
      RemoveKeyKeySet(st.active, TaskId, id);
      KeySetMember(st.active, TaskId, t);
      DistinctCons(c, st.completed, TaskId);
  }

  /** `undoDelete` keeps the invariant. */
  lemma UndoKeepsValid(st: Store)
    requires Valid(st)
    ensures Valid(UndoDelete(st))
  {
    if st.deleted != [] {
      var t := st.deleted[0];
      var rest := st.deleted[1..];
      var r := UndoDelete(st);
      assert st.deleted == [t] + rest;
      DistinctCons(t, rest, TaskId);
      KeySetSingleton(t, TaskId);
      DistinctConcat(st.active, [t], TaskId);
      PermutationKeepsDistinct(r.active, st.active + [t], TaskId);
      PermutedMembers(r.active, st.active, t);
    }
  }

  lemma ApplyKeepsValid(st: Store, a: Action)
    requires Valid(st)
    ensures Valid(Apply(st, a))
  {
    match a
    case AddAction(d) => AddKeepsValid(st, d);
    case DeleteAction(id) => DeleteKeepsValid(st, id);
    case CompleteAction(id) => CompleteKeepsValid(st, id);
    case UndoAction => UndoKeepsValid(st);
  }

  /** Any sequence of handler calls keeps the invariant. */
  lemma {:induction false} RunKeepsValid(st: Store, acts: seq<Action>)
    requires Valid(st)
    ensures Valid(Run(st, acts))
    decreases |acts|
  {
    if acts != [] {
      ApplyKeepsValid(st, acts[0]);
      RunKeepsValid(Apply(st, acts[0]), acts[1..]);
    }
  }

  /** Every state the page can reach from its sample state satisfies the invariant. */
  lemma ReachableStoresValid(acts: seq<Action>)
    ensures Valid(Run(SampleStore(), acts))
  {
    StartStatesValid();
    RunKeepsValid(SampleStore(), acts);
  }

  /** Deleting keeps the active list in priority order: it only drops a task. */
  lemma DeleteKeepsSorted(st: Store, id: int)
    requires Sorted(st.active, PriorityLe)
    ensures Sorted(DeleteTask(st, id).active, PriorityLe)
  {
    if FindById(st.active, id).Some? {
      FilterKeepsSorted(st.active, KeyIsNot(TaskId, id), PriorityLe);
    }
  }

  /** Completing keeps the active list in priority order: it only drops a task. */
  lemma CompleteKeepsSorted(st: Store, id: int)
    requires Sorted(st.active, PriorityLe)
    ensures Sorted(CompleteTask(st, id).active, PriorityLe)
  {
    if FindById(st.active, id).Some? {
      FilterKeepsSorted(st.active, KeyIsNot(TaskId, id), PriorityLe);
    }
  }

  /** On a list in priority order, `addTask` is a single insertion: the new task
      lands right after every task of smaller or equal priority and before every
      task of larger priority, and nothing else moves. */
  lemma AddPlacesAfterEqualPriority(st: Store, d: Draft)
    requires Sorted(st.active, PriorityLe)
    ensures var t := Task(st.counter, d.name, d.priority, d.deadline, d.category, false);
      var k := InsertionPoint(st.active, t, PriorityLe);
      && AddTask(st, d).active == st.active[..k] + [t] + st.active[k..]
      && (forall i :: 0 <= i < k ==> st.active[i].priority <= d.priority)
      && (forall i :: k <= i < |st.active| ==> st.active[i].priority > d.priority)
  {
    var t := Task(st.counter, d.name, d.priority, d.deadline, d.category, false);
    var k := InsertionPoint(st.active, t, PriorityLe);
    PriorityLeIsTotalPreorder();
    AppendThenSort(st.active, t, PriorityLe);
    InsertAt(st.active, t, PriorityLe);
    forall i | k <= i < |st.active|
      ensures st.active[i].priority > d.priority
    {
      if k < i {
        assert PriorityLe(st.active[k], st.active[i]);
      }
    }
  }

  /** Deleting a task and undoing at once gives back the same active tasks,
      the restored one with its original id and fields, in priority order; the
      undo buffer, the completed list and the counter are as before. */
  lemma DeleteThenUndo(st: Store, id: int)
    requires Valid(st)
    requires id in KeySet(st.active, TaskId)
    ensures var r := UndoDelete(DeleteTask(st, id));
      && multiset(r.active) == multiset(st.active)
      && FindById(st.active, id).value in r.active
      && Sorted(r.active, PriorityLe)
      && r.deleted == st.deleted && r.completed == st.completed && r.counter == st.counter
  {
    var t := FindById(st.active, id).value;
    var m := DeleteTask(st, id);
    var r := UndoDelete(m);
    assert m.active == Filter(st.active, KeyIsNot(TaskId, t.id));
    assert m.deleted == [t] + st.deleted;
    RemoveKeyRemovesOne(st.active, TaskId, t);
    assert multiset(r.active) == multiset(m.active + [t]);
    assert t in multiset(r.active);
  }
}

=== FILE: WebStore.dfy ===
/** The task collections of the web version (src/components/TaskManager.tsx):
    the active list kept in priority order, the completed list and the undo
    buffer of deleted tasks, both newest first, and the id counter. Every
    handler is one state transition from a store to the next store. */
module WebStore {
  import opened Wrappers
  import opened Seqs
  import opened Sorting
  import opened Ids

  /** A task. `deadline` is the deadline's timestamp in milliseconds, the value
      `Date.getTime()` returns and the deadline sort compares. */
  datatype Task = Task(id: int, name: string, priority: int, deadline: int, category: string, completed: bool)

  /** What the form hands to `addTask`: a task without its id and completion flag. */
  datatype Draft = Draft(name: string, priority: int, deadline: int, category: string)

  datatype Store = Store(active: seq<Task>, completed: seq<Task>, deleted: seq<Task>, counter: int)

  /** The category labels the page offers. */
  const Categories: seq<string> := ["Work", "Personal", "Study", "Health", "Shopping", "Other"]

  function TaskId(t: Task): int { t.id }

  /** The comparator of both priority sorts: lower number first. */
  function PriorityLe(a: Task, b: Task): bool { a.priority <= b.priority }

  lemma PriorityLeIsTotalPreorder()
    ensures TotalPreorder(PriorityLe)
  {
  }

  /** The state the hooks start with, before the mount effect runs. */
  function InitialStore(): Store {
    Store([], [], [], 1)
  }

  /** The state after the mount effect: three sample tasks and the counter at 4. */
  function SampleStore(): Store {
    Store([Task(1, "Complete React Project", 1, 1717977600000, "Work", false),
           Task(2, "Buy Groceries", 3, 1717804800000, "Shopping", false),
           Task(3, "Study Data Structures", 2, 1718409600000, "Study", false)],
          [], [], 4)
  }

  /** `[...xs].sort((a, b) => a.priority - b.priority)`. */
  function SortByPriority(s: seq<Task>): (r: seq<Task>)
    ensures IsStableSortOf(r, s, PriorityLe)
  {
    PriorityLeIsTotalPreorder();
    Sort(s, PriorityLe)
  }

  /** `addTask`: the draft becomes a task with the current counter as its id and
      `completed` false, the active list is re-sorted by priority with the new
      task appended before the sort, and the counter moves on by one. */
  function AddTask(st: Store, d: Draft): (r: Store)
    ensures r.counter == st.counter + 1
    ensures r.completed == st.completed && r.deleted == st.deleted
    ensures IsStableSortOf(r.active,
      st.active + [Task(st.counter, d.name, d.priority, d.deadline, d.category, false)], PriorityLe)
  {
    var t := Task(st.counter, d.name, d.priority, d.deadline, d.category, false);
    st.(active := SortByPriority(st.active + [t]), counter := st.counter + 1)
  }

  /** `tasks.find(task => task.id === id)`: the first task carrying `id`. */
  function FindById(s: seq<Task>, id: int): (r: Option<Task>)
    ensures r.None? <==> id !in KeySet(s, TaskId)
    ensures r.Some? ==> r.value in s && r.value.id == id
    ensures r.Some? ==> exists i :: 0 <= i < |s| && s[i] == r.value && forall j :: 0 <= j < i ==> s[j].id != id
    decreases |s|
  {
    if s == [] then None
    else
      DistinctCons(s[0], s[1..], TaskId);
      assert s == [s[0]] + s[1..];
      if s[0].id == id then Some(s[0]) else FindById(s[1..], id)
  }

  /** `tasks.filter(task => task.id !== id)`. */
  function WithoutId(s: seq<Task>, id: int): (r: seq<Task>)
    ensures forall x :: x in r <==> x in s && x.id != id
    ensures forall x :: multiset(r)[x] == if x.id != id then multiset(s)[x] else 0
    ensures IsSubsequence(r, s)
  {
    FilterMembership(s, KeyIsNot(TaskId, id));
    FilterMultiplicity(s, KeyIsNot(TaskId, id));
    FilterIsSubsequence(s, KeyIsNot(TaskId, id));
    assert forall x :: KeyIsNot(TaskId, id)(x) == (x.id != id);
    Filter(s, KeyIsNot(TaskId, id))
  }

  /** `deleteTask`: an active task carrying `id` leaves the active list and goes,
      unchanged, to the front of the undo buffer. An unknown id changes nothing. */
  function DeleteTask(st: Store, id: int): (r: Store)
    ensures id !in KeySet(st.active, TaskId) ==> r == st
    ensures id in KeySet(st.active, TaskId) ==>
      && |r.deleted| == |st.deleted| + 1 && r.deleted[1..] == st.deleted
      && r.deleted[0] == FindById(st.active, id).value
      && (forall x :: x in r.active <==> x in st.active && x.id != id)
      && (forall x :: multiset(r.active)[x] == if x.id != id then multiset(st.active)[x] else 0)
      && IsSubsequence(r.active, st.active)
      && r.completed == st.completed && r.counter == st.counter
  {
    match FindById(st.active, id)
    case None => st
    case Some(t) =>
      var r := st.(active := WithoutId(st.active, id), deleted := [t] + st.deleted);
      assert r.deleted[1..] == st.deleted;
      r
  }

  /** `completeTask`: an active task carrying `id` leaves the active list and a
      copy of it with `completed` set goes to the front of the completed list.
      An unknown id changes nothing. */
  function CompleteTask(st: Store, id: int): (r: Store)
    ensures id !in KeySet(st.active, TaskId) ==> r == st
    ensures id in KeySet(st.active, TaskId) ==>
      && |r.completed| == |st.completed| + 1 && r.completed[1..] == st.completed
      && r.completed[0] == FindById(st.active, id).value.(completed := true)
      && (forall x :: x in r.active <==> x in st.active && x.id != id)
      && (forall x :: multiset(r.active)[x] == if x.id != id then multiset(st.active)[x] else 0)
      && IsSubsequence(r.active, st.active)
      && r.deleted == st.deleted && r.counter == st.counter
  {
    match FindById(st.active, id)
    case None => st
    case Some(t) =>
      var r := st.(active := WithoutId(st.active, id), completed := [t.(completed := true)] + st.completed);
      assert r.completed[1..] == st.completed;
      r
  }

  /** `undoDelete`: the head of the undo buffer, id and all, returns to the
      active list, which is re-sorted by priority. An empty buffer changes nothing. */
  function UndoDelete(st: Store): (r: Store)
    ensures st.deleted == [] ==> r == st
    ensures st.deleted != [] ==>
      && r.deleted == st.deleted[1..]
      && IsStableSortOf(r.active, st.active + [st.deleted[0]], PriorityLe)
      && r.completed == st.completed && r.counter == st.counter
  {
    if st.deleted == [] then st
    else st.(active := SortByPriority(st.active + [st.deleted[0]]), deleted := st.deleted[1..])
  }

  /** One user action on the page: a submitted draft, a delete or complete
      button on a task card, or the undo button. */
  datatype Action = AddAction(draft: Draft) | DeleteAction(id: int) | CompleteAction(id: int) | UndoAction

  /** Dispatches one action to its handler. Only an add moves the counter. */
  function Apply(st: Store, a: Action): (r: Store)
    ensures r.counter == if a.AddAction? then st.counter + 1 else st.counter
  {
    match a
    case AddAction(d) => AddTask(st, d)
    case DeleteAction(id) => DeleteTask(st, id)
    case CompleteAction(id) => CompleteTask(st, id)
    case UndoAction => UndoDelete(st)
  }

  /** Applies the actions in order. The counter never decreases along a run. */
  function Run(st: Store, acts: seq<Action>): (r: Store)
    ensures r.counter >= st.counter
    decreases |acts|
  {
    if acts == [] then st else Run(Apply(st, acts[0]), acts[1..])
  }
}

=== FILE: Wrappers.dfy ===
/** Option type used for lookups that may miss and for drafts a form may reject. */
module Wrappers {

  datatype Option<+T> = None | Some(value: T)
}
